=== FILE: README.md ===
# chore-chart in Dafny

A model of the pure pipeline of `chore-chart.py`. The program turns a nested
chore configuration (room → frequency → chores) into a printable chart. Each
page is a grid: room header bands and chore rows go down, and the nine data
columns go across (Sunday … Saturday, Weekly, Monthly). Cells are coloured by
how often a chore recurs. The model covers four stages:

- **Word wrap** (`wrap_text`), in `wrapping.dfy`, on top of Python's `str.split`,
  `str.strip` and `str.join`, which are modelled in `strings.dfy`.
  - The wrapper fills lines greedily. Each word is appended with one leading
    space while the line stays within the limit.
  - The first line starts as `''`, so its first word also pays for a leading
    space. A first word of `max_length` characters or more therefore leaves an
    empty first line, and the wrapped text then starts with a newline. This is
    modelled as the program has it (`Wrapping.WrapTextFirstLineEmpty`,
    `Wrapping.LeadingSpaceExample`).
- **Record extraction** (`process_chores_data`), in `records.dfy`.
  - The configuration is a sequence of `(room, [(frequency, [chore])])` pairs,
    so declaration order is explicit.
  - The output is one `Record(room, chore, freq)` per chore.
- **Page partitioner** (`create_subsets`), in `pagination.dfy`.
  - The loop is modelled functionally: `Take` is one iteration and `Partition`
    is the loop with its final flush.
  - `IsPagination` states declaratively where pages begin and end.
    `CreateSubsetsPaginates` shows the loop meets it, and `PaginationUnique`
    shows it admits exactly one answer.
- **Page layout** (the row/fill logic of `create_subplot_for_subset`), in `layout.dfy`.
  - A page becomes a sequence of rows: `Header(room)` for a room's header band,
    and `Chore(record)` for a chore row.
  - `Label` gives a row's text: the room name, or the wrapped chore text.
  - `Fills` gives the nine fills of data columns 2..10.
  - A row's index is its `y_pos`.
- `chart.dfy` composes the stages as the main script does, without file
  loading or drawing.
- `settings.dfy` holds the constants.

### Where the program's comments and its code differ

The model follows the code on each of these:

- **Counting.** The comments speak of rows: "the max number of rows per page"
  (chore-chart.py:38) and "would exceed the max rows per page"
  (chore-chart.py:89). The tests count records only; header rows are never
  counted.
  - The page-full test is `len(current_subset) == max_rows_pp_func` (chore-chart.py:100).
  - The room-boundary estimate is the buffer length, plus the room's record
    count over the whole input, plus 2 (chore-chart.py:87, 91).
  - For example, the three-rooms-of-ten case flushes before the third room
    because 20 + 12 > 28 (`Pagination.ThreeRoomsOfTen`).
- **Long rooms.** The comment "Each subset will start with a new room"
  (chore-chart.py:78) does not hold for a long room. The page-full cut at
  chore-chart.py:100-102 closes a page at every 28th record, so the same room
  continues on the next page: 40 chores of one room become 28 + 12
  (`Pagination.FortyChoresOneRoom`, `Pagination.OneRoomIsChunked`). The reset
  of the room tracker at chore-chart.py:103, commented as what allows this,
  has no effect: the room-change rule never closes an empty buffer
  (`Pagination.TrackerResetIsInert`).
- **Unknown frequency tags.** The last branch is commented "Daily chores"
  (chore-chart.py:151) but catches every tag other than Monthly, Weekly and
  Individual. Such a tag gets the Daily columns, but in `'grey'` rather than
  Daily's colour, because of `color_config.get(freq, 'grey')`
  (chore-chart.py:155; `Layout.UnknownTagLikeDaily`).

## Model

| member | source | states |
|---|---|---|
| Settings.IndexOf | chore-chart.py:129-130 | `dates.index(x)` is the position of the first occurrence of `x` |
| Strings.Strip | chore-chart.py:60 | `str.strip()`: its own contract bounds the length and says the ends are not whitespace; that it removes whitespace from the two ends only, keeping a slice of the line, is stated by `Strings.StripTrimsEnds`; what it keeps is stated by `Strings.WordsStrip` and `Strings.StripEmptyIffNoWords` |
| Strings.Join | chore-chart.py:64 | `'\n'.join(lines)`: its own contract covers one line only; one separator between neighbours is stated by `Strings.JoinCons` and `Strings.JoinPair`; the words of the joined text are stated by `Strings.WordsOfJoin` and `Strings.WordsOfJoinedWords` |
| Strings.WordsAroundSpace | chore-chart.py:52 | `str.split()` separates words at every whitespace character: the words of `a + c + b` with `c` whitespace are the words of `a` followed by the words of `b` |
| Strings.WordsOfWord | chore-chart.py:52 | `str.split()` of a non-empty run without whitespace is that run as the single word |
| Strings.StripTrimsEnds | chore-chart.py:60 | `str.strip()` keeps a contiguous slice of the line and everything removed before or after it is whitespace |
| Strings.JoinPair | chore-chart.py:64 | two lines joined are the first, one separator, then the second |
| Strings.JoinCons | chore-chart.py:64 | joining a line in front of further lines puts exactly one separator between it and the join of the rest |
| Strings.WordsStrip | chore-chart.py:60 | stripping a line never changes its words |
| Strings.StripEmptyIffNoWords | chore-chart.py:60-62 | a stripped line is empty exactly when it holds no word |
| Strings.WordsOfJoin | chore-chart.py:64 | joining lines with a newline loses no word and invents none |
| Strings.WordsOfJoinedWords | chore-chart.py:64 | splitting words joined by whitespace gives the same words back (join/split round trip) |
| Wrapping.WrapText | chore-chart.py:48-64 | `wrap_text`: no contract of its own; its meaning is stated by `Wrapping.WrapTextKeepsWords`, `Wrapping.WrapTextLinesFit`, `Wrapping.WrapTextFirstLineEmpty` and `Wrapping.WrapTextGreedy` |
| Wrapping.WrapLines | chore-chart.py:56-62 | the loop keeps every closed line and always appends at least one more |
| Wrapping.Lines | chore-chart.py:52-62 | `wrap_text` always produces at least one line, possibly empty |
| Wrapping.WrapLinesWords | chore-chart.py:56-62 | loop invariant: words of the output lines = words of closed lines + words of the current line + unread words |
| Wrapping.WrapLinesFit | chore-chart.py:56-62 | loop invariant: every line is within the limit, is a single word, or is an empty first line |
| Wrapping.WrapLinesNonEmpty | chore-chart.py:56-62 | loop invariant: once a line has been closed the current line holds a word, so no line after the first is empty |
| Wrapping.WrapTextKeepsWords | chore-chart.py:52-64 | splitting the wrapped text gives exactly the input's words in order, none lost, added or reordered |
| Wrapping.WrapTextLinesFit | chore-chart.py:56-62 | no word is broken: every line is within the limit or one word; no line after the first is empty |
| Wrapping.WrapTextGreedy | chore-chart.py:56-62 | the wrap is greedy: a line is closed only when the next word after one space would overrun it (the first line counting its leading space); every line is its words joined by single spaces; every line fits unless it is empty or a later line of one long word |
| Wrapping.WrapTextFirstLineEmpty | chore-chart.py:54-58 | the first line is empty exactly when there is no word, or the first word plus the leading space exceeds the limit |
| Wrapping.WrapTextNoWords | chore-chart.py:52-64 | empty or all-whitespace text wraps to the empty string |
| Wrapping.LeadingSpaceExample | chore-chart.py:54-62 | "Vacuum" at limit 6 wraps to an empty line then "Vacuum" |
| Records.ProcessChoresData | chore-chart.py:67-73 | `process_chores_data`: no contract of its own; its meaning is stated by `Records.ProcessChoresDataLength` and `Records.ProcessChoresDataAt` |
| Records.ChoreRecords | chore-chart.py:71-72 | one record per chore of a frequency, in order, carrying the room and the frequency |
| Records.ProcessChoresDataLength | chore-chart.py:67-73 | the number of records equals the number of chores declared in the configuration |
| Records.ProcessChoresDataAt | chore-chart.py:67-73 | chore k of frequency j of room i is the record after the chores of earlier rooms and earlier frequencies, with that room, chore and frequency |
| Records.ProcessChoresDataAppend | chore-chart.py:69-72 | extraction of two configurations in sequence is the concatenation of their extractions |
| Records.ProcessChoresDataRooms | chore-chart.py:69-72 | every record carries a declared room |
| Records.DistinctRoomsGrouped | chore-chart.py:69-72 | with distinct room names, each room's records are contiguous |
| Pagination.Take | chore-chart.py:85-103 | one pass of the loop body: no contract of its own; its meaning is stated by `Pagination.TakeKeepsState` |
| Pagination.CreateSubsets | chore-chart.py:76-109 | `create_subsets`: no contract of its own; its meaning is stated by `Pagination.CreateSubsetsPaginates` and `Pagination.PaginationUnique` |
| Pagination.RoomCountIsMultiplicity | chore-chart.py:87 | `len(df[df['Room'] == room])` is the number of times `room` occurs in the `Room` column |
| Pagination.RoomCountAppend | chore-chart.py:87 | a room's count over two blocks of records is the sum of its counts in each |
| Pagination.TakeKeepsState | chore-chart.py:84-103 | loop invariant: closed pages + buffer reproduce the records read, and the closed pages are well cut |
| Pagination.PartitionPaginates | chore-chart.py:84-107 | from any state meeting the invariant, the loop and the final flush produce a well-cut pagination of everything read |
| Pagination.CreateSubsetsPaginates | chore-chart.py:76-109 | concatenated pages reproduce the input; every page is non-empty; pages are cut exactly at the two closing rules; empty input gives no page; with a budget of at least 1 no page exceeds it |
| Pagination.PaginationUnique | chore-chart.py:84-107 | two paginations of the same records under the closing rules are equal |
| Pagination.CreateSubsetsIsTheOnePagination | chore-chart.py:76-109 | any sequence of pages meeting the closing rules is the partitioner's output |
| Pagination.RoomCloseStartsRoom | chore-chart.py:87-94 | a page closed short of the budget was closed at a room change, non-empty, with length + room count + 2 > budget; the next page starts with the new room's record, and with grouped rooms that is the room's first record |
| Pagination.OneRoomIsChunked | chore-chart.py:99-103 | a single room is cut every `max_rows` records, not kept whole |
| Pagination.FortyChoresOneRoom | chore-chart.py:99-103 | 40 records of one room at budget 28 give pages of 28 and 12 |
| Pagination.ThreeRoomsOfTen | chore-chart.py:87-94 | three rooms of 10 at budget 28 give the first two rooms on one page and the third on its own |
| Layout.ChoreFills | chore-chart.py:128-157 | every chore row has exactly one fill for each of the nine data columns |
| Layout.PeriodColumns | chore-chart.py:129-130 | the Weekly and Monthly columns are grid columns 9 and 10 |
| Layout.WeekdayColumns | chore-chart.py:152-153 | removing the Weekly and Monthly columns from 2..10 leaves the weekday columns 2..8 |
| Layout.ChoreFillsDesignated | chore-chart.py:134-157 | column c gets the designated colour exactly when the tag designates it ({10} Monthly, {9} Weekly, {2..5} Individual, {2..8} otherwise) and lightgray otherwise; known tags use their configured colour, unknown tags grey |
| Layout.UnknownTagLikeDaily | chore-chart.py:151-157 | an unknown tag colours Daily's columns, in grey instead of Daily's colour |
| Layout.Fills | chore-chart.py:119-157 | every row, header or chore, describes nine data-column fills; a header row's are all the room band colour |
| Layout.FillsAt | chore-chart.py:119-157 | column c of a header row has the room band colour; column c of a chore row has the designated colour exactly when the row's tag designates c, and lightgray otherwise |
| Layout.Label | chore-chart.py:121-127 | the text of a row, the room name or `wrap_text(chore, text_wrap_length)`: no contract of its own; the wrapped text is described by the `Wrapping.WrapText` rows |
| Layout.LayoutRows | chore-chart.py:114-127 | the page loop from a given previous room: no contract of its own; its meaning is stated by `Layout.LayoutRowsAppend` and `Layout.PageRowsSnoc` |
| Layout.PageRows | chore-chart.py:114-159 | the rows of one page, starting with no previous room: no contract of its own; its meaning is stated by `Layout.PageRowsCount`, `Layout.PageHeaders`, `Layout.PageChores` and `Layout.ChoreRowPosition` |
| Layout.LayoutRowsAppend | chore-chart.py:114-127 | laying out two blocks in sequence = the first block's rows + the second's, continuing from the first block's last room |
| Layout.PageRowsSnoc | chore-chart.py:117-127 | appending a record adds a header row exactly when it starts a run of a new room (or is first on the page), then its chore row |
| Layout.PageRowsCount | chore-chart.py:114-159 | rows = records + headers (the final `y_pos`); a non-empty page has at least one header and never more headers than records |
| Layout.PageHeaders | chore-chart.py:117-122 | the header rows name the rooms of the page's runs, in order |
| Layout.PageChores | chore-chart.py:124-127 | the chore rows are the records' rows, one each, in record order |
| Layout.ChoreRowPosition | chore-chart.py:114-159 | record i is drawn at `y_pos` = i + headers up to it; the row above is its room's header exactly when it starts a run |
| Chart.ChoreChart | chore-chart.py:194-203 | the main script without file loading and drawing: no contract of its own; its meaning is stated by `Chart.ChartListsEveryChore` and `Chart.ChartPages` |
| Chart.Render | chore-chart.py:200-203 | one laid-out page per subset, in order |
| Chart.ChartListsEveryChore | chore-chart.py:194-203 | across the chart every declared chore appears as exactly one chore row, in declaration order |
| Chart.ChartPages | chore-chart.py:194-203 | no page iff no chore; every page starts with a header, holds at most 28 chores and at most 56 rows |
| Chart.DailyRowColours | chore-chart.py:151-157 | a Daily row is Azure on the seven weekdays and lightgray on Weekly and Monthly |
| Chart.OneRoomTwoChores | chore-chart.py:194-203 | Kitchen with two Daily chores gives one page: its header, then both chores in order |

## Left out

- Loading the YAML file (chore-chart.py:190-191). This is file I/O. The model starts from the parsed configuration.
- Configuration schema errors. The model's input type is a mapping of string room names to mappings of string frequency tags to lists of strings. A file of another shape is outside it, and so is a list item that YAML loads as something else: `- Yes` loads as a boolean and `- 2024` as an integer, and `wrap_text` then fails at `text.split()` (chore-chart.py:52).
- Duplicate room or frequency keys. The configuration is a sequence of pairs, so duplicates are not excluded. The parsed mapping cannot hold them: a repeated key keeps only its last value. `Records.DistinctRoomsGrouped` assumes distinct rooms where that matters.
- pandas. DataFrame construction and iteration become plain sequences of `Record`.
- matplotlib drawing (chore-chart.py:119-121, 127, 137-157, 167-184). Patch, text, axis, tick and grid calls, fonts and float coordinates are left out. What remains is the logical row description: a row's kind, its `Label`, its nine `Fills` and its index.
- The header band's 11-column extent. `Layout.Fills` gives a header row nine data-column fills in the band colour and does not describe label columns 0 and 1.
- The date-range caption (chore-chart.py:162-165). It depends on the system clock and on `datetime` formatting.
- PDF assembly and figure sizing (chore-chart.py:200-206). This is output plumbing. `Chart.ChoreChart` stops at one row list per page.
- Layout.ChoreFills: its own contract states only that there are nine fills. Which column gets which colour is stated separately in `Layout.ChoreFillsDesignated`.
- Strings.Words: its own contract states only that the result is a sequence of non-empty, whitespace-free words. What `str.split()` returns is stated by `Strings.WordsAroundSpace`, `Strings.WordsOfWord` and `Strings.WordsStrip`.
- Layout.Fills: its own contract states the count and the header band colour. The colours of a chore row are stated separately in `Layout.FillsAt`.

=== FILE: chart.dfy ===
/**
 The chart pipeline without the drawing back end: the configuration is
 flattened into records, the records are cut into pages of at most
 `MaxRowsPerPage` records, and every page is laid out as rows.
 */
module Chart {
  import opened Options
  import opened Records
  import opened Settings
  import opened Pagination
  import opened Layout

  /** The rows of every page, page by page. */
  function Render(pages: seq<seq<Record>>): (chart: seq<seq<Row>>)
    ensures |chart| == |pages|
    ensures forall k :: 0 <= k < |pages| ==> chart[k] == PageRows(pages[k])
  {
    if |pages| == 0 then [] else Render(pages[..|pages| - 1]) + [PageRows(pages[|pages| - 1])]
  }

  /** The chart of a configuration: one sequence of rows per page. */
  function ChoreChart(config: Config): seq<seq<Row>> {
    Render(CreateSubsets(ProcessChoresData(config), MaxRowsPerPage))
  }

  /** The chore rows of all pages, first page first. */
  function AllChores(chart: seq<seq<Row>>): seq<Row> {
    if |chart| == 0 then [] else AllChores(chart[..|chart| - 1]) + ChoreRowsOf(chart[|chart| - 1])
  }

  /** Chore rows of two blocks of records one after the other. */
  lemma {:induction false} ChoreRowsForAppend(a: seq<Record>, b: seq<Record>)
    ensures ChoreRowsFor(a + b) == ChoreRowsFor(a) + ChoreRowsFor(b)
  {
  }

  /** Reading the chore rows page after page gives the chore rows of all the
      records the pages hold, in order. */
  lemma {:induction false} RenderChores(pages: seq<seq<Record>>)
    ensures AllChores(Render(pages)) == ChoreRowsFor(Flatten(pages))
    decreases |pages|
  {
    if |pages| > 0 {
      var init, last := pages[..|pages| - 1], pages[|pages| - 1];
      RenderChores(init);
      var chart := Render(pages);
      assert chart[..|chart| - 1] == Render(init);
      PageChores(last);
      ChoreRowsForAppend(Flatten(init), last);
    }
  }

  /** Every declared chore appears exactly once as a chore row, in
      declaration order, across the pages of the chart. */
  lemma ChartListsEveryChore(config: Config)
    ensures AllChores(ChoreChart(config)) == ChoreRowsFor(ProcessChoresData(config))
    ensures |AllChores(ChoreChart(config))| == TotalChores(config)
  {
    var records := ProcessChoresData(config);
    CreateSubsetsPaginates(records, MaxRowsPerPage);
    RenderChores(CreateSubsets(records, MaxRowsPerPage));
    ProcessChoresDataLength(config);
  }

  /** The shape of the chart: no page without a declared chore and at least
      one page otherwise; every page opens with a room header, holds at most
      `MaxRowsPerPage` chores and so at most twice that many rows. */
  lemma ChartPages(config: Config)
    ensures ChoreChart(config) == [] <==> TotalChores(config) == 0
    ensures forall k :: 0 <= k < |ChoreChart(config)| ==>
      && |ChoreChart(config)[k]| > 0
      && ChoreChart(config)[k][0].Header?
      && |ChoreRowsOf(ChoreChart(config)[k])| <= MaxRowsPerPage
      && |ChoreChart(config)[k]| <= 2 * MaxRowsPerPage
  {
    var records := ProcessChoresData(config);
    var pages := CreateSubsets(records, MaxRowsPerPage);
    CreateSubsetsPaginates(records, MaxRowsPerPage);
    ProcessChoresDataLength(config);
    var chart: seq<seq<Row>> := ChoreChart(config);
    forall k | 0 <= k < |chart|
      ensures |chart[k]| > 0 && chart[k][0].Header?
      ensures |ChoreRowsOf(chart[k])| <= MaxRowsPerPage && |chart[k]| <= 2 * MaxRowsPerPage
    {
      assert |pages[k]| > 0;
      PageRowsCount(pages[k]);
      PageChores(pages[k]);
    }
  }

  /** Daily designates the weekday columns in its configured colour. */
  lemma DailyDesignates(freq: string, c: int)
    requires freq == "Daily"
    ensures Designates(freq, c) <==> 2 <= c <= 8
    ensures DesignatedColor(freq) == "Azure"
  {
    assert |freq| == 5;
    assert ColorConfig["Daily"] == "Azure";
  }

  /** A Daily chore row is coloured on the seven weekdays and neutral on
      Weekly and Monthly. */
  lemma DailyRowColours(r: Record)
    requires r.freq == "Daily"
    ensures forall i :: 0 <= i < 9 ==> Fills(Chore(r))[i] == (if i < 7 then "Azure" else NotApplicableColor)
  {
    forall i | 0 <= i < 9
      ensures Fills(Chore(r))[i] == (if i < 7 then "Azure" else NotApplicableColor)
    {
      DailyDesignates(r.freq, i + 2);
      ChoreFillsDesignated(r.freq, i + 2);
    }
  }

  /** A configuration with one room and one Daily frequency of two chores
      gives one page: the room's header, then the two chores in order. */
  lemma OneRoomTwoChores()
    ensures ChoreChart([("Kitchen", [("Daily", ["Wash dishes", "Wipe counters"])])]) ==
      [[Header("Kitchen"), Chore(Record("Kitchen", "Wash dishes", "Daily")), Chore(Record("Kitchen", "Wipe counters", "Daily"))]]
  {
    var config: Config := [("Kitchen", [("Daily", ["Wash dishes", "Wipe counters"])])];
    var a, b := Record("Kitchen", "Wash dishes", "Daily"), Record("Kitchen", "Wipe counters", "Daily");
    assert ProcessChoresData(config) == [a, b];
    OneRoomIsChunked([a, b], MaxRowsPerPage, "Kitchen");
    assert CreateSubsets([a, b], MaxRowsPerPage) == [[a, b]];
    var page, rest := [a, b], [b];
    assert page[1..] == rest && rest[1..] == [];
    assert LayoutRows(rest, Some("Kitchen")) == [Chore(b)];
    assert PageRows(page) == [Header("Kitchen"), Chore(a), Chore(b)];
  }
}

=== FILE: layout.dfy ===
/**
 The logical content of one chart page (`create_subplot_for_subset` without
 the drawing calls): rows top to bottom, a room header row before each record
 whose room differs from the previous record's room (the previous room starts
 as `None` on every page), then the record's chore row. A chore row carries
 the wrapped chore text and one fill per data column 2..10.

 Grid column `c` (2 <= c <= 10) is entry `c - 2` of a row's fills. The row
 index of a row is its `y_pos`.
 */
module Layout {
  import opened Options
  import opened Settings
  import opened Records
  import Wrapping

  /** One grid row: a room's header band, or the row of one chore record. */
  datatype Row = Header(room: string) | Chore(record: Record)

  /** `list(range(lo, hi))`. */
  function Range(lo: int, hi: int): (r: seq<int>)
    ensures |r| == if lo <= hi then hi - lo else 0
    ensures forall i :: 0 <= i < |r| ==> r[i] == lo + i
    decreases hi - lo
  {
    if lo >= hi then [] else [lo] + Range(lo + 1, hi)
  }

  /** `columns.remove(x)`: drops the first occurrence of `x`. */
  function Remove(xs: seq<int>, x: int): (r: seq<int>)
    ensures x in xs ==> |r| == |xs| - 1
    ensures x !in xs ==> r == xs
    ensures forall y :: y != x ==> (y in r <==> y in xs)
  {
    if |xs| == 0 then []
    else if xs[0] == x then xs[1..]
    else [xs[0]] + Remove(xs[1..], x)
  }

  /** Nine fills for columns 2..10: `colour` on the columns in `coloured`,
      the not-applicable fill elsewhere. */
  function Paint(coloured: seq<int>, colour: string): (fills: seq<string>)
    ensures |fills| == 9
  {
    seq(9, i => if i + FirstDataColumn in coloured then colour else NotApplicableColor)
  }

  /** The grid column of the Weekly data column. */
  function WeeklyColumn(): int {
    IndexOf(Dates, "Weekly") + FirstDataColumn
  }

  /** The grid column of the Monthly data column. */
  function MonthlyColumn(): int {
    IndexOf(Dates, "Monthly") + FirstDataColumn
  }

  /** The columns a frequency tag designates, as the chart promises them:
      the Monthly column, the Weekly column, the first four data columns for
      Individual, and the seven weekday columns for Daily and any other tag. */
  predicate Designates(freq: string, c: int) {
    if freq == "Monthly" then c == 10
    else if freq == "Weekly" then c == 9
    else if freq == "Individual" then 2 <= c <= 5
    else 2 <= c <= 8
  }

  /** The colour of the designated columns: the configured one, grey for an unknown tag. */
  function DesignatedColor(freq: string): string {
    if freq in ColorConfig then ColorConfig[freq] else UnknownColor
  }

  /** The fills of a chore row by frequency tag, branch by branch as the chart draws them. */
  function ChoreFills(freq: string): (fills: seq<string>)
    ensures |fills| == 9
  {
    var columns := Range(2, 11);
    if freq == "Monthly" then Paint([MonthlyColumn()], ColorConfig[freq])
    else if freq == "Weekly" then Paint([WeeklyColumn()], ColorConfig[freq])
    else if freq == "Individual" then Paint(Range(2, 6), Get(ColorConfig, freq, UnknownColor))
    else Paint(Remove(Remove(columns, WeeklyColumn()), MonthlyColumn()), Get(ColorConfig, freq, UnknownColor))
  }

  /** The Weekly header sits in grid column 9. */
  lemma WeeklyColumnAt()
    ensures WeeklyColumn() == 9
  {
    assert Dates[7] == "Weekly";
  }

  /** The Monthly header sits in grid column 10. */
  lemma MonthlyColumnAt()
    ensures MonthlyColumn() == 10
  {
    assert Dates[8] == "Monthly";
  }

  /** The Weekly and Monthly headers sit in grid columns 9 and 10. */
  lemma PeriodColumns()
    ensures WeeklyColumn() == 9 && MonthlyColumn() == 10
  {
    WeeklyColumnAt();
    MonthlyColumnAt();
  }

  /** Dropping the Weekly and Monthly columns from columns 2..10 leaves the weekdays. */
  lemma WeekdayColumns()
    ensures Remove(Remove(Range(2, 11), 9), 10) == Range(2, 9)
  {
    var weekdays := [2, 3, 4, 5, 6, 7, 8];
    DataColumns();
    WeekdayRange();
    assert Range(2, 11) == weekdays + [9, 10];
    RemoveAfter(weekdays, [9, 10], 9);
    RemoveAfter(weekdays, [10], 10);
  }

  /** `range(2, 11)` lists the nine data columns. */
  lemma DataColumns()
    ensures Range(2, 11) == [2, 3, 4, 5, 6, 7, 8, 9, 10]
  {
  }

  /** `range(2, 9)` lists the seven weekday columns. */
  lemma WeekdayRange()
    ensures Range(2, 9) == [2, 3, 4, 5, 6, 7, 8]
  {
  }

  /** Removing a value absent from a prefix removes it from the rest. */
  lemma {:induction false} RemoveAfter(xs: seq<int>, ys: seq<int>, x: int)
    requires x !in xs && |ys| > 0 && ys[0] == x
    ensures Remove(xs + ys, x) == xs + ys[1..]
    decreases |xs|
  {
    if |xs| > 0 {
      RemoveAfter(xs[1..], ys, x);
      assert (xs + ys)[1..] == xs[1..] + ys;
    } else {
      assert xs + ys == ys;
    }
  }

  /** No designated colour is the not-applicable fill. */
  lemma ColoursApplicable(freq: string)
    ensures DesignatedColor(freq) != NotApplicableColor
  {
    assert |NotApplicableColor| == 9;
    assert "LightPink"[0] != NotApplicableColor[0];
  }

  /** Membership in a range is a pair of bounds. */
  lemma InRange(lo: int, hi: int, c: int)
    ensures c in Range(lo, hi) <==> lo <= c < hi
  {
    if lo <= c < hi {
      assert Range(lo, hi)[c - lo] == c;
    }
  }

  /** A painted column carries the colour exactly when it is listed. */
  lemma PaintAt(coloured: seq<int>, colour: string, c: int)
    requires 2 <= c <= 10
    requires colour != NotApplicableColor
    ensures Paint(coloured, colour)[c - 2] == (if c in coloured then colour else NotApplicableColor)
  {
  }

  /** The Monthly and Weekly branches colour their own column only. */
  lemma PeriodFills(freq: string, c: int)
    requires freq == "Monthly" || freq == "Weekly"
    requires 2 <= c <= 10
    ensures ChoreFills(freq)[c - 2] == (if Designates(freq, c) then DesignatedColor(freq) else NotApplicableColor)
  {
    PeriodColumns();
    ColoursApplicable(freq);
    var column := if freq == "Monthly" then 10 else 9;
    assert ChoreFills(freq) == Paint([column], DesignatedColor(freq));
    PaintAt([column], DesignatedColor(freq), c);
  }

  /** The Individual branch colours the first four data columns. */
  lemma IndividualFills(c: int)
    requires 2 <= c <= 10
    ensures ChoreFills("Individual")[c - 2] == (if Designates("Individual", c) then DesignatedColor("Individual") else NotApplicableColor)
  {
    var colour := DesignatedColor("Individual");
    ColoursApplicable("Individual");
    assert ChoreFills("Individual") == Paint(Range(2, 6), colour);
    InRange(2, 6, c);
    PaintAt(Range(2, 6), colour, c);
  }

  /** Daily and every other tag colour the seven weekday columns. */
  lemma WeekdayFills(freq: string, c: int)
    requires freq != "Monthly" && freq != "Weekly" && freq != "Individual"
    requires 2 <= c <= 10
    ensures ChoreFills(freq)[c - 2] == (if Designates(freq, c) then DesignatedColor(freq) else NotApplicableColor)
  {
    PeriodColumns();
    WeekdayColumns();
    var colour := DesignatedColor(freq);
    ColoursApplicable(freq);
    assert ChoreFills(freq) == Paint(Range(2, 9), colour);
    InRange(2, 9, c);
    PaintAt(Range(2, 9), colour, c);
  }

  /** Every chore row colours exactly its frequency's designated columns, in
      the designated colour, and gives every other column the not-applicable fill. */
  lemma ChoreFillsDesignated(freq: string, c: int)
    requires 2 <= c <= 10
    ensures ChoreFills(freq)[c - 2] == (if Designates(freq, c) then DesignatedColor(freq) else NotApplicableColor)
  {
    if freq == "Monthly" || freq == "Weekly" {
      PeriodFills(freq, c);
    } else if freq == "Individual" {
      IndividualFills(c);
    } else {
      WeekdayFills(freq, c);
    }
  }

  /** An unknown frequency tag is laid out like Daily, in grey instead of Daily's colour. */
  lemma UnknownTagLikeDaily(freq: string, c: int)
    requires freq !in ColorConfig
    requires 2 <= c <= 10
    ensures ChoreFills(freq)[c - 2] == (if ChoreFills("Daily")[c - 2] == ColorConfig["Daily"] then UnknownColor else NotApplicableColor)
  {
    assert freq != "Monthly" && freq != "Weekly" && freq != "Individual";
    assert Designates(freq, c) == Designates("Daily", c);
    ChoreFillsDesignated(freq, c);
    ChoreFillsDesignated("Daily", c);
    ColoursApplicable("Daily");
  }

  /** The text drawn at the left of a row: the room name on a header band,
      the wrapped chore text on a chore row. */
  function Label(row: Row): string {
    match row
    case Header(room) => room
    case Chore(r) => Wrapping.WrapText(r.chore, TextWrapLength)
  }

  /** The header band across the nine data columns. */
  function BandFills(): (fills: seq<string>)
    ensures |fills| == 9
    ensures forall i :: 0 <= i < 9 ==> fills[i] == RoomRowColor
  {
    seq(9, _ => RoomRowColor)
  }

  /** The fills of data columns 2..10: the header band's colour across a
      header row, the frequency fills on a chore row. */
  function Fills(row: Row): (fills: seq<string>)
    ensures |fills| == 9
    ensures row.Header? ==> forall i :: 0 <= i < 9 ==> fills[i] == RoomRowColor
  {
    match row
    case Header(_) => BandFills()
    case Chore(r) => ChoreFills(r.freq)
  }

  /** The fill of grid column `c` on any row: the band colour on a header,
      the designated colour or the not-applicable fill on a chore row. */
  lemma FillsAt(row: Row, c: int)
    requires 2 <= c <= 10
    ensures row.Header? ==> Fills(row)[c - 2] == RoomRowColor
    ensures row.Chore? ==>
      Fills(row)[c - 2] == (if Designates(row.record.freq, c) then DesignatedColor(row.record.freq) else NotApplicableColor)
  {
    if row.Chore? {
      ChoreFillsDesignated(row.record.freq, c);
    }
  }

  /** The rows of `page`, the previous record's room being `prevRoom`. */
  function LayoutRows(page: seq<Record>, prevRoom: Option<string>): seq<Row>
    decreases |page|
  {
    if |page| == 0 then []
    else
      var r := page[0];
      (if Some(r.room) != prevRoom then [Header(r.room)] else []) + [Chore(r)]
        + LayoutRows(page[1..], Some(r.room))
  }

  /** The rows of one page; the previous room starts as `None`. */
  function PageRows(page: seq<Record>): seq<Row> {
    LayoutRows(page, None)
  }

  /** The room of the last record laid out, after `page` following `prevRoom`. */
  function LastRoom(page: seq<Record>, prevRoom: Option<string>): Option<string> {
    if |page| == 0 then prevRoom else Some(page[|page| - 1].room)
  }

  /** Record `i` is the first of a run of its room on the page. */
  predicate StartsRoom(page: seq<Record>, i: int)
    requires 0 <= i < |page|
  {
    i == 0 || page[i].room != page[i - 1].room
  }

  /** The number of header rows the page should have: one per run of a room. */
  function HeaderCount(page: seq<Record>): nat {
    if |page| == 0 then 0
    else HeaderCount(page[..|page| - 1]) + (if StartsRoom(page, |page| - 1) then 1 else 0)
  }

  /** The rooms of the runs of the page, in order. */
  function RunRooms(page: seq<Record>): seq<string> {
    if |page| == 0 then []
    else RunRooms(page[..|page| - 1]) + (if StartsRoom(page, |page| - 1) then [page[|page| - 1].room] else [])
  }

  /** The chore rows among `rows`, in order. */
  function ChoreRowsOf(rows: seq<Row>): seq<Row> {
    if |rows| == 0 then []
    else ChoreRowsOf(rows[..|rows| - 1]) + (if rows[|rows| - 1].Chore? then [rows[|rows| - 1]] else [])
  }

  /** The rooms of the header rows among `rows`, in order. */
  function HeadersOf(rows: seq<Row>): seq<string> {
    if |rows| == 0 then []
    else HeadersOf(rows[..|rows| - 1]) + (if rows[|rows| - 1].Header? then [rows[|rows| - 1].room] else [])
  }

  /** The chore row of every record, in record order. */
  function ChoreRowsFor(page: seq<Record>): (rows: seq<Row>)
    ensures |rows| == |page|
    ensures forall i :: 0 <= i < |page| ==> rows[i] == Chore(page[i])
  {
    if |page| == 0 then [] else ChoreRowsFor(page[..|page| - 1]) + [Chore(page[|page| - 1])]
  }

  /** Laying out two blocks one after the other: the second block continues
      from the room the first one ended with. */
  lemma {:induction false} LayoutRowsAppend(a: seq<Record>, b: seq<Record>, prevRoom: Option<string>)
    ensures LayoutRows(a + b, prevRoom) == LayoutRows(a, prevRoom) + LayoutRows(b, LastRoom(a, prevRoom))
    decreases |a|
  {
    if |a| == 0 {
      assert a + b == b;
    } else {
      var r := a[0];
      assert (a + b)[0] == r;
      assert (a + b)[1..] == a[1..] + b;
      LayoutRowsAppend(a[1..], b, Some(r.room));
      assert LastRoom(a[1..], Some(r.room)) == LastRoom(a, prevRoom);
      var first: seq<Row> := (if Some(r.room) != prevRoom then [Header(r.room)] else []) + [Chore(r)];
      var x, y := LayoutRows(a[1..], Some(r.room)), LayoutRows(b, LastRoom(a, prevRoom));
      assert first + (x + y) == (first + x) + y;
    }
  }

  /** Adding a record to a page adds a header row exactly when the record
      starts a run of its room, then the record's chore row. */
  lemma PageRowsSnoc(page: seq<Record>, r: Record)
    ensures PageRows(page + [r]) == PageRows(page)
      + (if StartsRoom(page + [r], |page|) then [Header(r.room)] else []) + [Chore(r)]
  {
    LayoutRowsAppend(page, [r], None);
    var tail := [r];
    assert tail[1..] == [];
    assert LastRoom(page, None) != Some(r.room) <==> StartsRoom(page + [r], |page|);
  }

  /** The snoc step read backwards: a non-empty page is its prefix's rows,
      a header when its last record starts a run, and that record's chore row. */
  lemma PageRowsLast(page: seq<Record>)
    requires |page| > 0
    ensures PageRows(page) == PageRows(page[..|page| - 1])
      + (if StartsRoom(page, |page| - 1) then [Header(page[|page| - 1].room)] else [])
      + [Chore(page[|page| - 1])]
  {
    var init, r := page[..|page| - 1], page[|page| - 1];
    assert page == init + [r];
    PageRowsSnoc(init, r);
  }

  /** The last row of a non-empty page is the chore row of its last record. */
  lemma LastRowIsChore(page: seq<Record>)
    requires |page| > 0
    ensures |PageRows(page)| > 0 && PageRows(page)[|PageRows(page)| - 1] == Chore(page[|page| - 1])
  {
    PageRowsLast(page);
  }

  /** Header rows count the runs of rooms: a page has one row per record plus
      one header per run, at least one header when it has a record, and at
      most one per record. */
  lemma {:induction false} PageRowsCount(page: seq<Record>)
    ensures |PageRows(page)| == |page| + HeaderCount(page)
    ensures HeaderCount(page) <= |page|
    ensures |page| > 0 ==> HeaderCount(page) >= 1
    decreases |page|
  {
    if |page| > 0 {
      var init := page[..|page| - 1];
      PageRowsCount(init);
      PageRowsLast(page);
    }
  }

  /** Filtering header rows distributes over concatenation. */
  lemma {:induction false} HeadersOfAppend(x: seq<Row>, y: seq<Row>)
    ensures HeadersOf(x + y) == HeadersOf(x) + HeadersOf(y)
    decreases |y|
  {
    if |y| == 0 {
      assert x + y == x;
    } else {
      var init := y[..|y| - 1];
      HeadersOfAppend(x, init);
      assert (x + y)[..|x + y| - 1] == x + init;
    }
  }

  /** Filtering chore rows distributes over concatenation. */
  lemma {:induction false} ChoreRowsOfAppend(x: seq<Row>, y: seq<Row>)
    ensures ChoreRowsOf(x + y) == ChoreRowsOf(x) + ChoreRowsOf(y)
    decreases |y|
  {
    if |y| == 0 {
      assert x + y == x;
    } else {
      var init := y[..|y| - 1];
      ChoreRowsOfAppend(x, init);
      assert (x + y)[..|x + y| - 1] == x + init;
      assert (x + y)[|x + y| - 1] == y[|y| - 1];
    }
  }

  /** Filtering the chore rows of rows ending with an optional header then a chore row. */
  lemma ChoresSnoc(rows: seq<Row>, header: seq<Row>, row: Row)
    requires |header| <= 1 && (forall k :: 0 <= k < |header| ==> header[k].Header?)
    requires row.Chore?
    ensures ChoreRowsOf(rows + header + [row]) == ChoreRowsOf(rows) + [row]
  {
    ChoreRowsOfAppend(rows + header, [row]);
    ChoreRowsOfAppend(rows, header);
    var one := [row];
    assert one[..0] == [];
    assert ChoreRowsOf(one) == [row];
    if |header| == 1 {
      assert header[..0] == [];
    }
    assert ChoreRowsOf(header) == [];
  }

  /** Filtering the header rows of rows ending with an optional header then a chore row. */
  lemma HeadersSnoc(rows: seq<Row>, header: seq<Row>, row: Row)
    requires |header| <= 1
    requires row.Chore?
    ensures HeadersOf(rows + header + [row]) == HeadersOf(rows) + HeadersOf(header)
  {
    HeadersOfAppend(rows + header, [row]);
    HeadersOfAppend(rows, header);
    var one := [row];
    assert one[..0] == [];
    assert HeadersOf(one) == [];
  }

  /** The header rows of a page name the rooms of its runs, in order: one
      header per run, none elsewhere. */
  lemma {:induction false} PageHeaders(page: seq<Record>)
    ensures HeadersOf(PageRows(page)) == RunRooms(page)
    decreases |page|
  {
    if |page| > 0 {
      var init, r := page[..|page| - 1], page[|page| - 1];
      PageHeaders(init);
      PageRowsLast(page);
      var header: seq<Row> := if StartsRoom(page, |page| - 1) then [Header(r.room)] else [];
      HeadersSnoc(PageRows(init), header, Chore(r));
      if StartsRoom(page, |page| - 1) {
        assert header[..0] == [];
      }
    }
  }

  /** The chore rows of a page are the records' chore rows, one each, in
      record order. */
  lemma {:induction false} PageChores(page: seq<Record>)
    ensures ChoreRowsOf(PageRows(page)) == ChoreRowsFor(page)
    decreases |page|
  {
    if |page| > 0 {
      var init, r := page[..|page| - 1], page[|page| - 1];
      PageChores(init);
      PageRowsLast(page);
      var header: seq<Row> := if StartsRoom(page, |page| - 1) then [Header(r.room)] else [];
      ChoresSnoc(PageRows(init), header, Chore(r));
    }
  }

  /** The rows of a prefix of a page are a prefix of the page's rows. */
  lemma PrefixRows(page: seq<Record>, n: nat)
    requires n <= |page|
    ensures |PageRows(page[..n])| <= |PageRows(page)|
    ensures PageRows(page)[..|PageRows(page[..n])|] == PageRows(page[..n])
  {
    assert page == page[..n] + page[n..];
    LayoutRowsAppend(page[..n], page[n..], None);
  }

  /** Where each record is drawn: record `i`'s chore row sits at row
      `i + HeaderCount(page[..i + 1])`, and the row just above it is the
      room's header exactly when the record starts a run of its room. */
  lemma ChoreRowPosition(page: seq<Record>, i: nat)
    requires i < |page|
    ensures i + HeaderCount(page[..i + 1]) < |PageRows(page)|
    ensures PageRows(page)[i + HeaderCount(page[..i + 1])] == Chore(page[i])
    ensures i + HeaderCount(page[..i + 1]) > 0
    ensures PageRows(page)[i + HeaderCount(page[..i + 1]) - 1] == Header(page[i].room) <==> StartsRoom(page, i)
  {
    var before, upto := page[..i], page[..i + 1];
    assert upto[..i] == before;
    assert upto[i] == page[i];
    assert StartsRoom(upto, i) == StartsRoom(page, i);
    PageRowsLast(upto);
    PageRowsCount(before);
    PageRowsCount(upto);
    PrefixRows(page, i + 1);
    var rows, head := PageRows(page), PageRows(upto);
    assert rows[|head| - 1] == head[|head| - 1];
    assert rows[|head| - 2] == head[|head| - 2];
    if !StartsRoom(page, i) {
      LastRowIsChore(before);
      assert before[i - 1] == page[i - 1];
    }
  }
}

=== FILE: options.dfy ===
/** The optional value used where the program starts a variable at `None`. */
module Options {

  datatype Option<+T> = None | Some(value: T)

}

=== FILE: pagination.dfy ===
/**
 The page partitioner (`create_subsets`). Records are taken in order into a
 page buffer. What the partitioner counts is records; header rows do not
 count. Two events close the buffer as a page:
 - before a record whose room differs from the room of the buffer's last
   record, when the buffer is not empty and its length plus the room's
   record count in the WHOLE input plus 2 exceeds the budget;
 - after an append that brings the buffer to exactly the budget, so a long
   room is cut every `maxRows` records. The room tracker is reset there as
   well, but that changes nothing: the room-change rule never closes an
   empty buffer (`TrackerResetIsInert`).
 A non-empty buffer left at the end is the last page.

 `CreateSubsets` is the loop; `IsPagination` states declaratively where pages
 begin and end, and `PaginationUnique` shows that this statement admits one
 pagination only, so the loop's contract pins its result down completely.
 */
module Pagination {
  import opened Options
  import opened Records

  /** `len(df[df['Room'] == room])`: the records of `room` in `rs`. */
  function RoomCount(rs: seq<Record>, room: string): nat
    ensures RoomCount(rs, room) <= |rs|
  {
    if |rs| == 0 then 0
    else RoomCount(rs[..|rs| - 1], room) + (if rs[|rs| - 1].room == room then 1 else 0)
  }

  /** The pages one after the other. */
  function Flatten(pages: seq<seq<Record>>): seq<Record> {
    if |pages| == 0 then [] else Flatten(pages[..|pages| - 1]) + pages[|pages| - 1]
  }

  /** Whether a buffer of `len` records ending with `prev` is closed as a page
      before `next` is taken, room counts being taken over `all`. */
  predicate ClosesBefore(all: seq<Record>, maxRows: int, len: int, prev: Record, next: Record) {
    || len == maxRows
    || (next.room != prev.room && len + RoomCount(all, next.room) + 2 > maxRows)
  }

  /** No position inside `page` is one where the partitioner would have closed it. */
  ghost predicate NoCutWithin(all: seq<Record>, maxRows: int, page: seq<Record>) {
    forall j :: 0 < j < |page| ==> !ClosesBefore(all, maxRows, j, page[j - 1], page[j])
  }

  /** `page` was closed before the first record of `next`. */
  ghost predicate Boundary(all: seq<Record>, maxRows: int, page: seq<Record>, next: seq<Record>) {
    && |page| > 0
    && |next| > 0
    && ClosesBefore(all, maxRows, |page|, page[|page| - 1], next[0])
  }

  /** Every page is non-empty, none holds a closing position, and each page
      but the first was begun where the partitioner closes its predecessor. */
  ghost predicate WellCut(all: seq<Record>, maxRows: int, pages: seq<seq<Record>>) {
    PagesUncut(all, maxRows, pages) && PagesChained(all, maxRows, pages)
  }

  /** Every page is non-empty and holds no closing position. */
  ghost predicate PagesUncut(all: seq<Record>, maxRows: int, pages: seq<seq<Record>>) {
    forall k :: 0 <= k < |pages| ==> |pages[k]| > 0 && NoCutWithin(all, maxRows, pages[k])
  }

  /** Each page but the first was begun where the partitioner closes its predecessor. */
  ghost predicate PagesChained(all: seq<Record>, maxRows: int, pages: seq<seq<Record>>) {
    forall j :: 0 < j < |pages| ==> Boundary(all, maxRows, pages[j - 1], pages[j])
  }

  /** `pages` cut `rs` into non-empty pieces exactly at the positions where the
      partitioner closes a page, room counts being taken over `all`. */
  ghost predicate Paginates(all: seq<Record>, rs: seq<Record>, maxRows: int, pages: seq<seq<Record>>) {
    Flatten(pages) == rs && WellCut(all, maxRows, pages)
  }

  /** `pages` is the result the partitioner owes on input `rs`. */
  ghost predicate IsPagination(rs: seq<Record>, maxRows: int, pages: seq<seq<Record>>) {
    Paginates(rs, rs, maxRows, pages)
  }

  /** The variables of the `create_subsets` loop: the closed pages, the page
      buffer and the room of the buffer's last record (`None` after a reset). */
  datatype LoopVars = LoopVars(subsets: seq<seq<Record>>, current: seq<Record>, currentRoom: Option<string>)

  /** Whether the loop body closes the buffer before taking `row` (the room-change
      rule): `room_chores_count` is the room's count plus 2. */
  predicate ClosesFirst(all: seq<Record>, maxRows: int, v: LoopVars, row: Record) {
    v.currentRoom != Some(row.room) && |v.current| > 0 && |v.current| + RoomCount(all, row.room) + 2 > maxRows
  }

  /** One pass of the loop body on `row`, room counts taken over `all`. */
  function Take(all: seq<Record>, maxRows: int, v: LoopVars, row: Record): LoopVars {
    var closeFirst := ClosesFirst(all, maxRows, v, row);
    var subsets := if closeFirst then v.subsets + [v.current] else v.subsets;
    var current := (if closeFirst then [] else v.current) + [row];
    if |current| == maxRows then LoopVars(subsets + [current], [], None)
    else LoopVars(subsets, current, Some(row.room))
  }

  /** With the buffer empty, the next pass is the same whatever room the
      tracker holds, so resetting it after a full page has no effect. */
  lemma TrackerResetIsInert(all: seq<Record>, maxRows: int, subsets: seq<seq<Record>>, room: string, row: Record)
    ensures Take(all, maxRows, LoopVars(subsets, [], None), row) == Take(all, maxRows, LoopVars(subsets, [], Some(room)), row)
    ensures !ClosesFirst(all, maxRows, LoopVars(subsets, [], Some(room)), row)
  {
  }

  /** The loop over the records `rs` not yet read, then the final flush. */
  function Partition(all: seq<Record>, rs: seq<Record>, maxRows: int, v: LoopVars): seq<seq<Record>>
    decreases |rs|
  {
    if |rs| == 0 then
      if |v.current| > 0 then v.subsets + [v.current] else v.subsets
    else
      Partition(all, rs[1..], maxRows, Take(all, maxRows, v, rs[0]))
  }

  /** `create_subsets(df, max_rows_pp_func)`. */
  function CreateSubsets(records: seq<Record>, maxRows: int): seq<seq<Record>> {
    Partition(records, records, maxRows, LoopVars([], [], None))
  }

  /** The records the loop has read so far. */
  function Read(v: LoopVars): seq<Record> {
    Flatten(v.subsets) + v.current
  }

  /** What holds of the loop variables before each record is read. */
  ghost predicate LoopState(all: seq<Record>, maxRows: int, v: LoopVars) {
    && WellCut(all, maxRows, v.subsets)
    && NoCutWithin(all, maxRows, v.current)
    && v.currentRoom == (if v.current == [] then None else Some(v.current[|v.current| - 1].room))
    && (v.current != [] ==> |v.current| != maxRows)
    && (v.current != [] && v.subsets != [] ==> Boundary(all, maxRows, v.subsets[|v.subsets| - 1], v.current))
    && (v.current == [] && v.subsets != [] ==> |v.subsets[|v.subsets| - 1]| == maxRows)
  }

  /** The loop body keeps the loop state and reads exactly `row`. */
  lemma TakeKeepsState(all: seq<Record>, maxRows: int, v: LoopVars, row: Record)
    requires LoopState(all, maxRows, v)
    ensures LoopState(all, maxRows, Take(all, maxRows, v, row))
    ensures Read(Take(all, maxRows, v, row)) == Read(v) + [row]
  {
    if ClosesFirst(all, maxRows, v, row) {
      TakeAfterClosing(all, maxRows, v, row);
    } else {
      TakeIntoBuffer(all, maxRows, v, row);
    }
  }

  /** The loop body when the room-change rule closes the buffer first. */
  lemma TakeAfterClosing(all: seq<Record>, maxRows: int, v: LoopVars, row: Record)
    requires LoopState(all, maxRows, v)
    requires ClosesFirst(all, maxRows, v, row)
    ensures LoopState(all, maxRows, Take(all, maxRows, v, row))
    ensures Read(Take(all, maxRows, v, row)) == Read(v) + [row]
  {
    var closed := v.subsets + [v.current];
    var empty: seq<Record> := [];
    assert empty + [row] == [row];
    ClosePage(all, maxRows, v.subsets, v.current);
    assert Boundary(all, maxRows, v.current, [row]);
    assert NoCutWithin(all, maxRows, [row]);
    if maxRows == 1 {
      assert Take(all, maxRows, v, row) == LoopVars(closed + [[row]], [], None);
      ClosePage(all, maxRows, closed, [row]);
    } else {
      assert Take(all, maxRows, v, row) == LoopVars(closed, [row], Some(row.room));
    }
  }

  /** The loop body when `row` joins the buffer without the room-change rule. */
  lemma TakeIntoBuffer(all: seq<Record>, maxRows: int, v: LoopVars, row: Record)
    requires LoopState(all, maxRows, v)
    requires !ClosesFirst(all, maxRows, v, row)
    ensures LoopState(all, maxRows, Take(all, maxRows, v, row))
    ensures Read(Take(all, maxRows, v, row)) == Read(v) + [row]
  {
    if |v.current| + 1 == maxRows {
      TakeFillsPage(all, maxRows, v, row);
    } else {
      TakeGrowsBuffer(all, maxRows, v, row);
    }
  }

  /** The loop body when `row` joins the buffer and the buffer stays short of the budget. */
  lemma TakeGrowsBuffer(all: seq<Record>, maxRows: int, v: LoopVars, row: Record)
    requires LoopState(all, maxRows, v)
    requires !ClosesFirst(all, maxRows, v, row)
    requires |v.current| + 1 != maxRows
    ensures LoopState(all, maxRows, Take(all, maxRows, v, row))
    ensures Read(Take(all, maxRows, v, row)) == Read(v) + [row]
  {
    var current := v.current + [row];
    assert Take(all, maxRows, v, row) == LoopVars(v.subsets, current, Some(row.room));
    TakeRecord(all, maxRows, v.current, row);
    if v.subsets != [] {
      assert Boundary(all, maxRows, v.subsets[|v.subsets| - 1], current);
    }
  }

  /** The loop body when `row` joins the buffer and brings it to the budget:
      the buffer is closed as a page and the room tracker reset. */
  lemma TakeFillsPage(all: seq<Record>, maxRows: int, v: LoopVars, row: Record)
    requires LoopState(all, maxRows, v)
    requires !ClosesFirst(all, maxRows, v, row)
    requires |v.current| + 1 == maxRows
    ensures LoopState(all, maxRows, Take(all, maxRows, v, row))
    ensures Read(Take(all, maxRows, v, row)) == Read(v) + [row]
  {
    var current := v.current + [row];
    assert Take(all, maxRows, v, row) == LoopVars(v.subsets + [current], [], None);
    TakeRecord(all, maxRows, v.current, row);
    if v.subsets != [] {
      assert Boundary(all, maxRows, v.subsets[|v.subsets| - 1], current);
    }
    ClosePage(all, maxRows, v.subsets, current);
  }

  /** From any state the loop reaches, it ends with a pagination of everything
      read before and after. */
  lemma {:induction false} PartitionPaginates(all: seq<Record>, rs: seq<Record>, maxRows: int, v: LoopVars)
    requires LoopState(all, maxRows, v)
    ensures Paginates(all, Read(v) + rs, maxRows, Partition(all, rs, maxRows, v))
    decreases |rs|
  {
    if |rs| == 0 {
      assert Read(v) + rs == Read(v);
      if |v.current| > 0 {
        ClosePage(all, maxRows, v.subsets, v.current);
      }
    } else {
      TakeKeepsState(all, maxRows, v, rs[0]);
      assert Read(v) + rs == (Read(v) + [rs[0]]) + rs[1..];
      PartitionPaginates(all, rs[1..], maxRows, Take(all, maxRows, v, rs[0]));
    }
  }

  /** `create_subsets` returns the pagination of its input: nothing dropped,
      duplicated or reordered, every page non-empty, pages closed exactly where
      the two closing rules apply. Empty input gives no page, and with a budget
      of at least one record no page exceeds the budget. */
  lemma CreateSubsetsPaginates(records: seq<Record>, maxRows: int)
    ensures IsPagination(records, maxRows, CreateSubsets(records, maxRows))
    ensures CreateSubsets(records, maxRows) == [] <==> records == []
    ensures maxRows >= 1 ==> forall k :: 0 <= k < |CreateSubsets(records, maxRows)| ==> |CreateSubsets(records, maxRows)[k]| <= maxRows
  {
    PartitionPaginates(records, records, maxRows, LoopVars([], [], None));
    assert Read(LoopVars([], [], None)) + records == records;
    PagesBounded(records, records, maxRows, CreateSubsets(records, maxRows));
    NoPagesIffEmpty(records, records, maxRows, CreateSubsets(records, maxRows));
  }

  /** A pagination has no page exactly when there is nothing to paginate. */
  lemma NoPagesIffEmpty(all: seq<Record>, rs: seq<Record>, maxRows: int, pages: seq<seq<Record>>)
    requires Paginates(all, rs, maxRows, pages)
    ensures pages == [] <==> rs == []
  {
    if pages != [] {
      assert |pages[|pages| - 1]| > 0;
    }
  }

  /** With a budget of at least one record, no page holds more than the budget. */
  lemma PagesBounded(all: seq<Record>, rs: seq<Record>, maxRows: int, pages: seq<seq<Record>>)
    requires Paginates(all, rs, maxRows, pages)
    ensures maxRows >= 1 ==> forall k :: 0 <= k < |pages| ==> |pages[k]| <= maxRows
  {
    if maxRows >= 1 {
      forall k | 0 <= k < |pages|
        ensures |pages[k]| <= maxRows
      {
        if |pages[k]| > maxRows {
          var page := pages[k];
          assert ClosesBefore(all, maxRows, maxRows, page[maxRows - 1], page[maxRows]);
        }
      }
    }
  }

  /** Closing a page keeps the pages well cut and appends its records. */
  lemma ClosePage(all: seq<Record>, maxRows: int, pages: seq<seq<Record>>, page: seq<Record>)
    requires WellCut(all, maxRows, pages)
    requires |page| > 0 && NoCutWithin(all, maxRows, page)
    requires pages != [] ==> Boundary(all, maxRows, pages[|pages| - 1], page)
    ensures WellCut(all, maxRows, pages + [page])
    ensures Flatten(pages + [page]) == Flatten(pages) + page
  {
    FlattenSnoc(pages, page);
    AppendUncut(all, maxRows, pages, page);
    AppendChained(all, maxRows, pages, page);
  }

  lemma AppendUncut(all: seq<Record>, maxRows: int, pages: seq<seq<Record>>, page: seq<Record>)
    requires PagesUncut(all, maxRows, pages)
    requires |page| > 0 && NoCutWithin(all, maxRows, page)
    ensures PagesUncut(all, maxRows, pages + [page])
  {
    var pages' := pages + [page];
    forall k | 0 <= k < |pages'|
      ensures |pages'[k]| > 0 && NoCutWithin(all, maxRows, pages'[k])
    {
      if k < |pages| {
        assert pages'[k] == pages[k];
      }
    }
  }

  lemma AppendChained(all: seq<Record>, maxRows: int, pages: seq<seq<Record>>, page: seq<Record>)
    requires PagesChained(all, maxRows, pages)
    requires pages != [] ==> Boundary(all, maxRows, pages[|pages| - 1], page)
    ensures PagesChained(all, maxRows, pages + [page])
  {
    var pages' := pages + [page];
    forall j | 0 < j < |pages'|
      ensures Boundary(all, maxRows, pages'[j - 1], pages'[j])
    {
      if j < |pages| {
        assert pages'[j - 1] == pages[j - 1] && pages'[j] == pages[j];
      }
    }
  }

  /** Flattening after one more page appends that page's records. */
  lemma FlattenSnoc(pages: seq<seq<Record>>, page: seq<Record>)
    ensures Flatten(pages + [page]) == Flatten(pages) + page
  {
    assert (pages + [page])[..|pages|] == pages;
  }

  /** Taking a record into the buffer where the partitioner does not close it
      keeps the buffer free of closing positions. */
  lemma TakeRecord(all: seq<Record>, maxRows: int, current: seq<Record>, next: Record)
    requires NoCutWithin(all, maxRows, current)
    requires current != [] ==> !ClosesBefore(all, maxRows, |current|, current[|current| - 1], next)
    ensures NoCutWithin(all, maxRows, current + [next])
  {
    var page := current + [next];
    forall j | 0 < j < |page|
      ensures !ClosesBefore(all, maxRows, j, page[j - 1], page[j])
    {
      if j < |current| {
        assert page[j - 1] == current[j - 1] && page[j] == current[j];
      }
    }
  }

  /** Flattening splits off the first page. */
  lemma {:induction false} FlattenFront(pages: seq<seq<Record>>)
    requires |pages| > 0
    ensures Flatten(pages) == pages[0] + Flatten(pages[1..])
    decreases |pages|
  {
    if |pages| == 1 {
      assert pages[..0] == [] && pages[1..] == [];
    } else {
      var init := pages[..|pages| - 1];
      FlattenFront(init);
      assert init[1..] == pages[1..][..|pages[1..]| - 1];
    }
  }

  /** A pagination is its first page followed by a pagination of the rest;
      the first page ends where the partitioner closes it, or at the end. */
  lemma PaginatesFront(all: seq<Record>, rs: seq<Record>, maxRows: int, pages: seq<seq<Record>>)
    requires Paginates(all, rs, maxRows, pages)
    requires |pages| > 0
    ensures |pages[0]| <= |rs| && rs[..|pages[0]|] == pages[0]
    ensures Paginates(all, rs[|pages[0]|..], maxRows, pages[1..])
    ensures |pages| == 1 ==> |pages[0]| == |rs|
    ensures |pages| > 1 ==> |pages[0]| < |rs| && ClosesBefore(all, maxRows, |pages[0]|, rs[|pages[0]| - 1], rs[|pages[0]|])
  {
    FlattenFront(pages);
    var first, rest := pages[0], pages[1..];
    assert rs == first + Flatten(rest);
    assert rs[..|first|] == first && rs[|first|..] == Flatten(rest);
    forall k | 0 <= k < |rest|
      ensures |rest[k]| > 0 && NoCutWithin(all, maxRows, rest[k])
    {
      assert rest[k] == pages[k + 1];
    }
    forall j | 0 < j < |rest|
      ensures Boundary(all, maxRows, rest[j - 1], rest[j])
    {
      assert rest[j - 1] == pages[j] && rest[j] == pages[j + 1];
    }
    if |pages| > 1 {
      FlattenFront(rest);
      assert Boundary(all, maxRows, pages[0], pages[1]);
      assert rs[|first|] == pages[1][0];
    } else {
      assert rest == [];
    }
  }

  /** No pagination ends its first page before another one does. */
  lemma FirstPagesAgree(all: seq<Record>, rs: seq<Record>, maxRows: int, p1: seq<seq<Record>>, p2: seq<seq<Record>>)
    requires Paginates(all, rs, maxRows, p1) && Paginates(all, rs, maxRows, p2)
    requires |p1| > 0 && |p2| > 0
    ensures |p1[0]| >= |p2[0]|
  {
    PaginatesFront(all, rs, maxRows, p1);
    PaginatesFront(all, rs, maxRows, p2);
  }

  /** The declarative statement admits one pagination only: whatever meets it
      is the partitioner's result. */
  lemma {:induction false} PaginationUnique(all: seq<Record>, rs: seq<Record>, maxRows: int,
                                            p1: seq<seq<Record>>, p2: seq<seq<Record>>)
    requires Paginates(all, rs, maxRows, p1) && Paginates(all, rs, maxRows, p2)
    ensures p1 == p2
    decreases |p1|
  {
    NoPagesIffEmpty(all, rs, maxRows, p1);
    NoPagesIffEmpty(all, rs, maxRows, p2);
    if |p1| > 0 {
      FirstPagesAgree(all, rs, maxRows, p1, p2);
      FirstPagesAgree(all, rs, maxRows, p2, p1);
      PaginatesFront(all, rs, maxRows, p1);
      PaginatesFront(all, rs, maxRows, p2);
      PaginationUnique(all, rs[|p1[0]|..], maxRows, p1[1..], p2[1..]);
      assert p1 == [p1[0]] + p1[1..] && p2 == [p2[0]] + p2[1..];
    }
  }

  /** `create_subsets` is the one pagination of its input. */
  lemma CreateSubsetsIsTheOnePagination(records: seq<Record>, maxRows: int, pages: seq<seq<Record>>)
    requires IsPagination(records, maxRows, pages)
    ensures CreateSubsets(records, maxRows) == pages
  {
    CreateSubsetsPaginates(records, maxRows);
    PaginationUnique(records, records, maxRows, CreateSubsets(records, maxRows), pages);
  }

  /** Counting a room splits over concatenation. */
  lemma {:induction false} RoomCountAppend(a: seq<Record>, b: seq<Record>, room: string)
    ensures RoomCount(a + b, room) == RoomCount(a, room) + RoomCount(b, room)
    decreases |b|
  {
    if |b| == 0 {
      assert a + b == a;
    } else {
      var init := b[..|b| - 1];
      RoomCountAppend(a, init, room);
      assert (a + b)[..|a + b| - 1] == a + init;
    }
  }

  /** The count of a room over records all of one room. */
  lemma {:induction false} RoomCountUniform(rs: seq<Record>, room: string, other: string)
    requires forall i :: 0 <= i < |rs| ==> rs[i].room == room
    ensures RoomCount(rs, room) == |rs|
    ensures other != room ==> RoomCount(rs, other) == 0
    decreases |rs|
  {
    if |rs| > 0 {
      RoomCountUniform(rs[..|rs| - 1], room, other);
    }
  }

  /** The `Room` column of `rs`. */
  function RoomsOf(rs: seq<Record>): (rooms: seq<string>)
    ensures |rooms| == |rs|
    ensures forall i :: 0 <= i < |rs| ==> rooms[i] == rs[i].room
  {
    seq(|rs|, i requires 0 <= i < |rs| => rs[i].room)
  }

  /** A room's count is the number of times it occurs in the `Room` column. */
  lemma {:induction false} RoomCountIsMultiplicity(rs: seq<Record>, room: string)
    ensures RoomCount(rs, room) == multiset(RoomsOf(rs))[room]
    decreases |rs|
  {
    if |rs| > 0 {
      var init := rs[..|rs| - 1];
      RoomCountIsMultiplicity(init, room);
      assert RoomsOf(rs) == RoomsOf(init) + [rs[|rs| - 1].room];
    }
  }

  /** Flattening splits at any page index. */
  lemma {:induction false} FlattenSplit(pages: seq<seq<Record>>, n: nat)
    requires n <= |pages|
    ensures Flatten(pages) == Flatten(pages[..n]) + Flatten(pages[n..])
    decreases |pages|
  {
    if n == |pages| {
      assert pages[..n] == pages && pages[n..] == [];
    } else {
      var init := pages[..|pages| - 1];
      FlattenSplit(init, n);
      assert init[..n] == pages[..n];
      assert pages[n..][..|pages[n..]| - 1] == init[n..];
    }
  }

  /** A first page followed by a pagination of the rest is a pagination,
      provided the first page is closed where the rest begins. */
  lemma PaginatesCons(all: seq<Record>, maxRows: int, page: seq<Record>, rs: seq<Record>, rest: seq<seq<Record>>)
    requires Paginates(all, rs, maxRows, rest)
    requires |page| > 0 && NoCutWithin(all, maxRows, page)
    requires rest != [] ==> Boundary(all, maxRows, page, rest[0])
    ensures Paginates(all, page + rs, maxRows, [page] + rest)
  {
    var pages := [page] + rest;
    FlattenFront(pages);
    assert pages[1..] == rest;
    forall k | 0 <= k < |pages|
      ensures |pages[k]| > 0 && NoCutWithin(all, maxRows, pages[k])
    {
      if k > 0 {
        assert pages[k] == rest[k - 1];
      }
    }
    forall j | 0 < j < |pages|
      ensures Boundary(all, maxRows, pages[j - 1], pages[j])
    {
      if j > 1 {
        assert pages[j - 1] == rest[j - 2] && pages[j] == rest[j - 1];
      }
    }
  }

  /** Consecutive pieces of `size` records, the last one possibly shorter. */
  function Chunks(rs: seq<Record>, size: int): (pages: seq<seq<Record>>)
    requires size >= 1
    decreases |rs|
  {
    if |rs| == 0 then []
    else if |rs| <= size then [rs]
    else [rs[..size]] + Chunks(rs[size..], size)
  }

  /** Records of one room have no closing position short of the budget. */
  lemma OneRoomUncut(all: seq<Record>, maxRows: int, page: seq<Record>, room: string)
    requires forall i :: 0 <= i < |page| ==> page[i].room == room
    requires |page| <= maxRows
    ensures NoCutWithin(all, maxRows, page)
  {
  }

  /** At most `maxRows` records of one room make a single page. */
  lemma OneRoomOnePage(all: seq<Record>, rs: seq<Record>, maxRows: int, room: string)
    requires forall i :: 0 <= i < |rs| ==> rs[i].room == room
    requires 0 < |rs| <= maxRows
    ensures Paginates(all, rs, maxRows, [rs])
  {
    OneRoomUncut(all, maxRows, rs, room);
    assert [rs][..0] == [];
    assert Flatten([rs]) == rs;
  }

  /** Records of one room are cut into chunks of `maxRows`, counted over any input. */
  lemma {:induction false} OneRoomPaginates(all: seq<Record>, rs: seq<Record>, maxRows: int, room: string)
    requires maxRows >= 1
    requires forall i :: 0 <= i < |rs| ==> rs[i].room == room
    ensures Paginates(all, rs, maxRows, Chunks(rs, maxRows))
    decreases |rs|
  {
    if 0 < |rs| <= maxRows {
      OneRoomOnePage(all, rs, maxRows, room);
    } else if |rs| > maxRows {
      var page, more := rs[..maxRows], rs[maxRows..];
      assert page + more == rs;
      var chunks := Chunks(more, maxRows);
      assert Chunks(rs, maxRows) == [page] + chunks;
      OneRoomUncut(all, maxRows, page, room);
      OneRoomPaginates(all, more, maxRows, room);
      NoPagesIffEmpty(all, more, maxRows, chunks);
      assert Boundary(all, maxRows, page, chunks[0]);
      PaginatesCons(all, maxRows, page, more, chunks);
    }
  }

  /** A room longer than the budget is not kept whole: with a single room,
      pages are cut every `maxRows` records. */
  lemma OneRoomIsChunked(records: seq<Record>, maxRows: int, room: string)
    requires maxRows >= 1
    requires forall i :: 0 <= i < |records| ==> records[i].room == room
    ensures CreateSubsets(records, maxRows) == Chunks(records, maxRows)
  {
    OneRoomPaginates(records, records, maxRows, room);
    CreateSubsetsIsTheOnePagination(records, maxRows, Chunks(records, maxRows));
  }

  /** Forty chores of one room on a budget of 28 give a page of 28 and a page of 12. */
  lemma FortyChoresOneRoom(records: seq<Record>, room: string)
    requires |records| == 40
    requires forall i :: 0 <= i < |records| ==> records[i].room == room
    ensures CreateSubsets(records, 28) == [records[..28], records[28..]]
  {
    OneRoomIsChunked(records, 28, room);
    var more := records[28..];
    assert Chunks(more, 28) == [more];
  }

  /** Three rooms of ten records on a budget of 28: the second room joins the
      first page (10 + 10 + 2 <= 28), the third starts a new page (20 + 10 + 2 > 28). */
  lemma ThreeRoomsOfTen(a: seq<Record>, b: seq<Record>, c: seq<Record>, ra: string, rb: string, rc: string)
    requires |a| == 10 && |b| == 10 && |c| == 10
    requires forall i :: 0 <= i < 10 ==> a[i].room == ra && b[i].room == rb && c[i].room == rc
    requires ra != rb && rb != rc && ra != rc
    ensures CreateSubsets(a + b + c, 28) == [a + b, c]
  {
    var all := a + b + c;
    RoomCountAppend(a + b, c, rb);
    RoomCountAppend(a, b, rb);
    RoomCountAppend(a + b, c, rc);
    RoomCountAppend(a, b, rc);
    RoomCountUniform(a, ra, rb);
    RoomCountUniform(a, ra, rc);
    RoomCountUniform(b, rb, rc);
    RoomCountUniform(c, rc, rb);
    assert RoomCount(all, rb) == 10 && RoomCount(all, rc) == 10;
    var first := a + b;
    forall j | 0 < j < |first|
      ensures !ClosesBefore(all, 28, j, first[j - 1], first[j])
    {
      if j < 10 {
        assert first[j - 1] == a[j - 1] && first[j] == a[j];
      } else if j > 10 {
        assert first[j - 1] == b[j - 11] && first[j] == b[j - 10];
      } else {
        assert first[j] == b[0];
      }
    }
    OneRoomUncut(all, 28, c, rc);
    var pages := [first, c];
    assert Boundary(all, 28, first, c) by {
      assert first[19] == b[9];
    }
    assert Flatten(pages) == all by {
      FlattenFront(pages);
      assert pages[1..] == [c] && [c][..0] == [];
      assert Flatten([c]) == c;
    }
    assert PagesUncut(all, 28, pages);
    assert PagesChained(all, 28, pages);
    CreateSubsetsIsTheOnePagination(all, 28, pages);
  }

  /** A page closed by the room-change rule (not by reaching the budget) ends
      at a room change that would overflow the budget; when each room's
      records are contiguous, the next page begins with that room's first record. */
  lemma RoomCloseStartsRoom(records: seq<Record>, maxRows: int, pages: seq<seq<Record>>, k: nat)
    requires IsPagination(records, maxRows, pages)
    requires 0 < k < |pages| && |pages[k - 1]| != maxRows
    ensures pages[k][0].room != pages[k - 1][|pages[k - 1]| - 1].room
    ensures |pages[k - 1]| + RoomCount(records, pages[k][0].room) + 2 > maxRows
    ensures |Flatten(pages[..k])| < |records| && records[|Flatten(pages[..k])|] == pages[k][0]
    ensures Grouped(records) ==>
      forall i :: 0 <= i < |Flatten(pages[..k])| ==> records[i].room != pages[k][0].room
  {
    assert Boundary(records, maxRows, pages[k - 1], pages[k]);
    var start := |Flatten(pages[..k])|;
    FlattenSplit(pages, k);
    FlattenFront(pages[k..]);
    assert pages[..k][..k - 1] == pages[..k - 1];
    assert Flatten(pages[..k]) == Flatten(pages[..k - 1]) + pages[k - 1];
    assert records[start] == pages[k][0];
    assert records[start - 1] == pages[k - 1][|pages[k - 1]| - 1];
    if Grouped(records) {
      GroupedRoomStart(records, start);
    }
  }

  /** In grouped records, a record whose room differs from its predecessor's
      is its room's first record. */
  lemma GroupedRoomStart(records: seq<Record>, start: int)
    requires Grouped(records)
    requires 0 < start < |records| && records[start - 1].room != records[start].room
    ensures forall i :: 0 <= i < start ==> records[i].room != records[start].room
  {
  }
}

=== FILE: records.dfy ===
/**
 Record extraction (`process_chores_data`): the nested configuration
 room -> frequency -> chores is flattened into one record per chore, rooms in
 declaration order, then frequencies within a room, then chores within a
 frequency. The configuration is a sequence of pairs so that declaration order
 is explicit; the frequency is kept as the tag string the file gives.
 */
module Records {

  /** One chore of the chart: the row `[room, chore, freq]`. */
  datatype Record = Record(room: string, chore: string, freq: string)

  /** The frequencies of one room, each with its chores, in declaration order. */
  type RoomEntry = seq<(string, seq<string>)>

  /** All rooms, each with its frequencies, in declaration order. */
  type Config = seq<(string, RoomEntry)>

  /** The innermost loop: one record per chore of one frequency. */
  function ChoreRecords(room: string, freq: string, chores: seq<string>): (rs: seq<Record>)
    ensures |rs| == |chores|
    ensures forall k :: 0 <= k < |chores| ==> rs[k] == Record(room, chores[k], freq)
  {
    if |chores| == 0 then []
    else [Record(room, chores[0], freq)] + ChoreRecords(room, freq, chores[1..])
  }

  /** The middle loop: the records of one room, frequency by frequency. */
  function RoomRecords(room: string, freqs: RoomEntry): seq<Record> {
    if |freqs| == 0 then []
    else ChoreRecords(room, freqs[0].0, freqs[0].1) + RoomRecords(room, freqs[1..])
  }

  /** `process_chores_data`: the records of all rooms, room by room. */
  function ProcessChoresData(config: Config): seq<Record> {
    if |config| == 0 then []
    else RoomRecords(config[0].0, config[0].1) + ProcessChoresData(config[1..])
  }

  /** The number of chores declared for one room. */
  function RoomChoreCount(freqs: RoomEntry): nat {
    if |freqs| == 0 then 0 else RoomChoreCount(freqs[..|freqs| - 1]) + |freqs[|freqs| - 1].1|
  }

  /** The number of chores declared in the whole configuration. */
  function TotalChores(config: Config): nat {
    if |config| == 0 then 0 else TotalChores(config[..|config| - 1]) + RoomChoreCount(config[|config| - 1].1)
  }

  /** Counting chores splits over a split of the frequency list. */
  lemma {:induction false} RoomChoreCountFront(freqs: RoomEntry)
    requires |freqs| > 0
    ensures RoomChoreCount(freqs) == |freqs[0].1| + RoomChoreCount(freqs[1..])
    decreases |freqs|
  {
    if |freqs| > 1 {
      var init := freqs[..|freqs| - 1];
      RoomChoreCountFront(init);
      assert init[1..] == freqs[1..][..|freqs[1..]| - 1];
    } else {
      assert freqs[..0] == [];
    }
  }

  /** Counting chores splits over a split of the room list. */
  lemma {:induction false} TotalChoresFront(config: Config)
    requires |config| > 0
    ensures TotalChores(config) == RoomChoreCount(config[0].1) + TotalChores(config[1..])
    decreases |config|
  {
    if |config| > 1 {
      var init := config[..|config| - 1];
      TotalChoresFront(init);
      assert init[1..] == config[1..][..|config[1..]| - 1];
    } else {
      assert config[..0] == [];
    }
  }

  /** Chore `k` of frequency `j` of a room sits after the chores of the
      frequencies declared before `j`. */
  lemma {:induction false} RoomRecordsAt(room: string, freqs: RoomEntry, j: nat, k: nat)
    requires j < |freqs| && k < |freqs[j].1|
    ensures |RoomRecords(room, freqs)| == RoomChoreCount(freqs)
    ensures RoomChoreCount(freqs[..j]) + k < |RoomRecords(room, freqs)|
    ensures RoomRecords(room, freqs)[RoomChoreCount(freqs[..j]) + k] == Record(room, freqs[j].1[k], freqs[j].0)
    decreases |freqs|
  {
    RoomChoreCountFront(freqs);
    RoomRecordsLength(room, freqs);
    RoomRecordsLength(room, freqs[1..]);
    if j == 0 {
      assert freqs[..0] == [];
    } else {
      RoomRecordsAt(room, freqs[1..], j - 1, k);
      RoomChoreCountFront(freqs[..j]);
      assert freqs[..j][1..] == freqs[1..][..j - 1];
    }
  }

  /** The number of records of one room is the number of chores declared for it. */
  lemma {:induction false} RoomRecordsLength(room: string, freqs: RoomEntry)
    ensures |RoomRecords(room, freqs)| == RoomChoreCount(freqs)
    decreases |freqs|
  {
    if |freqs| > 0 {
      RoomRecordsLength(room, freqs[1..]);
      RoomChoreCountFront(freqs);
    }
  }

  /** One record per chore: the extraction has exactly as many records as the
      configuration declares chores. */
  lemma {:induction false} ProcessChoresDataLength(config: Config)
    ensures |ProcessChoresData(config)| == TotalChores(config)
    decreases |config|
  {
    if |config| > 0 {
      ProcessChoresDataLength(config[1..]);
      RoomRecordsLength(config[0].0, config[0].1);
      TotalChoresFront(config);
    }
  }

  /** Declaration order: chore `k` of frequency `j` of room `i` is the record
      after all chores of the rooms before `i` and of the frequencies of room
      `i` before `j`, and it carries that room, chore and frequency. */
  lemma {:induction false} ProcessChoresDataAt(config: Config, i: nat, j: nat, k: nat)
    requires i < |config| && j < |config[i].1| && k < |config[i].1[j].1|
    ensures TotalChores(config[..i]) + RoomChoreCount(config[i].1[..j]) + k < |ProcessChoresData(config)|
    ensures ProcessChoresData(config)[TotalChores(config[..i]) + RoomChoreCount(config[i].1[..j]) + k]
         == Record(config[i].0, config[i].1[j].1[k], config[i].1[j].0)
    decreases |config|
  {
    ProcessChoresDataLength(config[1..]);
    RoomRecordsLength(config[0].0, config[0].1);
    if i == 0 {
      assert config[..0] == [];
      RoomRecordsAt(config[0].0, config[0].1, j, k);
    } else {
      ProcessChoresDataAt(config[1..], i - 1, j, k);
      TotalChoresFront(config[..i]);
      assert config[..i][1..] == config[1..][..i - 1];
    }
  }

  /** Extraction of two configurations one after the other is the extraction
      of the first followed by that of the second. */
  lemma {:induction false} ProcessChoresDataAppend(c1: Config, c2: Config)
    ensures ProcessChoresData(c1 + c2) == ProcessChoresData(c1) + ProcessChoresData(c2)
    decreases |c1|
  {
    if |c1| > 0 {
      ProcessChoresDataAppend(c1[1..], c2);
      assert (c1 + c2)[1..] == c1[1..] + c2;
    } else {
      assert c1 + c2 == c2;
    }
  }

  /** The room names of a configuration. */
  function RoomNames(config: Config): set<string> {
    set a | 0 <= a < |config| :: config[a].0
  }

  /** No room is declared twice (as the keys of a mapping). */
  predicate DistinctRooms(config: Config) {
    forall a, b :: 0 <= a < b < |config| ==> config[a].0 != config[b].0
  }

  /** Each room's records are contiguous: between two records of one room
      every record is of that room. */
  ghost predicate Grouped(rs: seq<Record>) {
    forall i, l, j :: 0 <= i < l < j < |rs| && rs[i].room == rs[j].room ==> rs[l].room == rs[i].room
  }

  /** Every record of a room's block carries that room. */
  lemma {:induction false} RoomRecordsRoom(room: string, freqs: RoomEntry)
    ensures forall i :: 0 <= i < |RoomRecords(room, freqs)| ==> RoomRecords(room, freqs)[i].room == room
    decreases |freqs|
  {
    if |freqs| > 0 {
      RoomRecordsRoom(room, freqs[1..]);
    }
  }

  /** Every extracted record carries a declared room. */
  lemma {:induction false} ProcessChoresDataRooms(config: Config)
    ensures forall i :: 0 <= i < |ProcessChoresData(config)| ==> ProcessChoresData(config)[i].room in RoomNames(config)
    decreases |config|
  {
    if |config| > 0 {
      var head := RoomRecords(config[0].0, config[0].1);
      var tail := ProcessChoresData(config[1..]);
      RoomRecordsRoom(config[0].0, config[0].1);
      ProcessChoresDataRooms(config[1..]);
      var all: seq<Record> := head + tail;
      forall i | 0 <= i < |all|
        ensures all[i].room in RoomNames(config)
      {
        if i < |head| {
          assert all[i] == head[i];
          assert config[0].0 in RoomNames(config);
        } else {
          assert all[i] == tail[i - |head|];
          var name := tail[i - |head|].room;
          var a :| 0 <= a < |config[1..]| && config[1..][a].0 == name;
          assert config[a + 1].0 == name;
        }
      }
    }
  }

  /** A block of one room followed by grouped records without that room is grouped. */
  lemma GroupedAppend(head: seq<Record>, tail: seq<Record>, room: string)
    requires forall i :: 0 <= i < |head| ==> head[i].room == room
    requires forall i :: 0 <= i < |tail| ==> tail[i].room != room
    requires Grouped(tail)
    ensures Grouped(head + tail)
  {
    var rs := head + tail;
    forall i, l, j | 0 <= i < l < j < |rs| && rs[i].room == rs[j].room
      ensures rs[l].room == rs[i].room
    {
      if j < |head| {
        assert rs[i] == head[i] && rs[l] == head[l];
      } else if |head| <= i {
        assert rs[i] == tail[i - |head|] && rs[l] == tail[l - |head|] && rs[j] == tail[j - |head|];
      }
    }
  }

  /** When no room is declared twice, extraction keeps each room's records together. */
  lemma {:induction false} DistinctRoomsGrouped(config: Config)
    requires DistinctRooms(config)
    ensures Grouped(ProcessChoresData(config))
    decreases |config|
  {
    if |config| > 0 {
      var head := RoomRecords(config[0].0, config[0].1);
      var tail := ProcessChoresData(config[1..]);
      DistinctRoomsGrouped(config[1..]);
      RoomRecordsRoom(config[0].0, config[0].1);
      ProcessChoresDataRooms(config[1..]);
      forall i | 0 <= i < |tail|
        ensures tail[i].room != config[0].0
      {
        var a :| 0 <= a < |config[1..]| && config[1..][a].0 == tail[i].room;
        assert config[a + 1].0 == tail[i].room;
      }
      GroupedAppend(head, tail, config[0].0);
    }
  }
}

=== FILE: settings.dfy ===
/** The chart's fixed configuration: column headers, colours, page budget, wrap width. */
module Settings {

  /** Headers of the nine data columns, left to right. */
  const Dates: seq<string> := [
    "Sunday", "Monday", "Tuesday", "Wednesday", "Thursday", "Friday", "Saturday",
    "Weekly", "Monthly"
  ]

  /** Fill of a room's header row. */
  const RoomRowColor: string := "DarkSeaGreen"

  /** Fill of the columns a chore's frequency designates. */
  const ColorConfig: map<string, string> := map[
    "Daily" := "Azure",
    "Weekly" := "LemonChiffon",
    "Monthly" := "LightPink",
    "Individual" := "DarkTurquoise"
  ]

  /** Fill of a designated column when the frequency has no configured colour. */
  const UnknownColor: string := "grey"

  /** Fill of the columns a chore's frequency does not designate. */
  const NotApplicableColor: string := "lightgray"

  /** The record budget of one page (`max_rows_per_page`). */
  const MaxRowsPerPage: int := 28

  /** The wrap width of chore text (`text_wrap_length`). */
  const TextWrapLength: int := 30

  /** Grid column of the first data column; columns 0 and 1 hold the labels. */
  const FirstDataColumn: int := 2

  /** Python's `xs.index(x)`: the position of the first occurrence of `x`. */
  function IndexOf(xs: seq<string>, x: string): (i: nat)
    requires x in xs
    ensures i < |xs| && xs[i] == x
    ensures forall j :: 0 <= j < i ==> xs[j] != x
  {
    if xs[0] == x then 0 else 1 + IndexOf(xs[1..], x)
  }

  /** Python's `dict.get(key, default)`. */
  function Get(m: map<string, string>, key: string, default: string): (v: string)
    ensures key in m ==> v == m[key]
    ensures key !in m ==> v == default
  {
    if key in m then m[key] else default
  }
}

=== FILE: strings.dfy ===
/**
 The three string operations of Python that the chart relies on, stated over
 `string` (a sequence of Unicode scalar values):
 - `str.split()` with no separator (`Words`): runs of whitespace separate
   words and no empty word is produced;
 - `str.strip()` with no argument (`Strip`): leading and trailing whitespace
   is removed;
 - `sep.join(xs)` (`Join`).
 */
module Strings {

  /** Python's `str.isspace()` on one character. */
  predicate IsSpace(c: char) {
    || ('\t' <= c <= '\r')
    || ('\U{1C}' <= c <= '\U{1F}')
    || c == ' '
    || c == '\U{85}'
    || c == '\U{A0}'
    || c == '\U{1680}'
    || ('\U{2000}' <= c <= '\U{200A}')
    || c == '\U{2028}'
    || c == '\U{2029}'
    || c == '\U{202F}'
    || c == '\U{205F}'
    || c == '\U{3000}'
  }

  /** No character of `s` is whitespace. */
  predicate NoSpace(s: string) {
    forall i :: 0 <= i < |s| ==> !IsSpace(s[i])
  }

  /** A word as `str.split()` yields it: non-empty, without whitespace. */
  predicate IsWord(s: string) {
    |s| > 0 && NoSpace(s)
  }

  /** Every element of `ws` is a word. */
  predicate AreWords(ws: seq<string>) {
    forall i :: 0 <= i < |ws| ==> IsWord(ws[i])
  }

  // ---------------------------------------------------------------------------
  // str.split()
  // ---------------------------------------------------------------------------

  /** The word collected so far, if any. */
  function Flush(cur: string): (ws: seq<string>)
    requires NoSpace(cur)
    ensures AreWords(ws)
    ensures |ws| <= 1
    ensures cur == [] <==> ws == []
  {
    if cur == [] then [] else [cur]
  }

  /** Splits `s` at whitespace, `cur` being the part of a word read before `s`. */
  function SplitFrom(s: string, cur: string): (ws: seq<string>)
    requires NoSpace(cur)
    ensures AreWords(ws)
    decreases |s|
  {
    if |s| == 0 then Flush(cur)
    else if IsSpace(s[0]) then Flush(cur) + SplitFrom(s[1..], [])
    else SplitFrom(s[1..], cur + [s[0]])
  }

  /** Python's `s.split()`: the whitespace-separated words of `s`, in order. */
  function Words(s: string): (ws: seq<string>)
    ensures AreWords(ws)
  {
    SplitFrom(s, [])
  }

  /** A whitespace character separates the words on its two sides. */
  lemma {:induction false} SplitAtSpace(a: string, c: char, b: string, cur: string)
    requires IsSpace(c)
    requires NoSpace(cur)
    ensures SplitFrom(a + [c] + b, cur) == SplitFrom(a, cur) + SplitFrom(b, [])
    decreases |a|
  {
    if |a| == 0 {
      assert a + [c] + b == [c] + b;
      assert ([c] + b)[1..] == b;
    } else {
      assert (a + [c] + b)[0] == a[0];
      assert (a + [c] + b)[1..] == a[1..] + [c] + b;
      if IsSpace(a[0]) {
        SplitAtSpace(a[1..], c, b, []);
      } else {
        SplitAtSpace(a[1..], c, b, cur + [a[0]]);
      }
    }
  }

  /** Words on both sides of a whitespace character. */
  lemma WordsAroundSpace(a: string, c: char, b: string)
    requires IsSpace(c)
    ensures Words(a + [c] + b) == Words(a) + Words(b)
  {
    SplitAtSpace(a, c, b, []);
  }

  /** Reading a run of non-whitespace characters extends the current word. */
  lemma {:induction false} SplitNoSpace(w: string, cur: string)
    requires NoSpace(cur)
    requires NoSpace(w)
    ensures SplitFrom(w, cur) == Flush(cur + w)
    decreases |w|
  {
    if |w| == 0 {
      assert cur + w == cur;
    } else {
      assert !IsSpace(w[0]);
      assert (cur + [w[0]]) + w[1..] == cur + w;
      SplitNoSpace(w[1..], cur + [w[0]]);
    }
  }

  /** A word splits into itself. */
  lemma WordsOfWord(w: string)
    requires IsWord(w)
    ensures Words(w) == [w]
  {
    SplitNoSpace(w, []);
    assert [] + w == w;
  }

  /** A string with no word in it is all whitespace. */
  lemma {:induction false} NoWordsAllSpace(s: string, cur: string)
    requires NoSpace(cur)
    requires SplitFrom(s, cur) == []
    ensures cur == []
    ensures forall i :: 0 <= i < |s| ==> IsSpace(s[i])
    decreases |s|
  {
    if |s| > 0 {
      if IsSpace(s[0]) {
        NoWordsAllSpace(s[1..], []);
      } else {
        NoWordsAllSpace(s[1..], cur + [s[0]]);
        assert false;
      }
      assert forall i :: 0 <= i < |s| - 1 ==> IsSpace(s[1..][i]);
    }
  }

  // ---------------------------------------------------------------------------
  // str.strip()
  // ---------------------------------------------------------------------------

  /** Drops leading whitespace. */
  function TrimLeft(s: string): (t: string)
    ensures |t| <= |s|
    ensures t == s[|s| - |t|..]
    ensures |t| > 0 ==> !IsSpace(t[0])
    decreases |s|
  {
    if |s| > 0 && IsSpace(s[0]) then TrimLeft(s[1..]) else s
  }

  /** Drops trailing whitespace. */
  function TrimRight(s: string): (t: string)
    ensures |t| <= |s|
    ensures t == s[..|t|]
    ensures |t| > 0 ==> !IsSpace(t[|t| - 1])
    decreases |s|
  {
    if |s| > 0 && IsSpace(s[|s| - 1]) then TrimRight(s[..|s| - 1]) else s
  }

  /** Python's `s.strip()`. */
  function Strip(s: string): (t: string)
    ensures |t| <= |s|
    ensures |t| > 0 ==> !IsSpace(t[0]) && !IsSpace(t[|t| - 1])
  {
    TrimRight(TrimLeft(s))
  }

  /** `TrimLeft` drops whitespace only. */
  lemma {:induction false} TrimLeftSpaces(s: string)
    ensures forall k :: 0 <= k < |s| - |TrimLeft(s)| ==> IsSpace(s[k])
    decreases |s|
  {
    if |s| > 0 && IsSpace(s[0]) {
      TrimLeftSpaces(s[1..]);
      forall k | 1 <= k < |s| - |TrimLeft(s)|
        ensures IsSpace(s[k])
      {
        assert s[k] == s[1..][k - 1];
      }
    }
  }

  /** `TrimRight` drops whitespace only. */
  lemma {:induction false} TrimRightSpaces(s: string)
    ensures forall k :: |TrimRight(s)| <= k < |s| ==> IsSpace(s[k])
    decreases |s|
  {
    if |s| > 0 && IsSpace(s[|s| - 1]) {
      TrimRightSpaces(s[..|s| - 1]);
      forall k | |TrimRight(s)| <= k < |s| - 1
        ensures IsSpace(s[k])
      {
        assert s[k] == s[..|s| - 1][k];
      }
    }
  }

  /** Where `strip()` starts: the number of leading whitespace characters. */
  function StripStart(s: string): (i: nat)
    ensures i + |Strip(s)| <= |s|
  {
    |s| - |TrimLeft(s)|
  }

  /** `strip()` removes only the ends: the result is the slice of `s` after
      the leading whitespace, and everything after it is whitespace too.
      Inner whitespace is kept as it is. */
  lemma StripTrimsEnds(s: string)
    ensures Strip(s) == s[StripStart(s)..StripStart(s) + |Strip(s)|]
    ensures forall k :: 0 <= k < StripStart(s) ==> IsSpace(s[k])
    ensures forall k :: StripStart(s) + |Strip(s)| <= k < |s| ==> IsSpace(s[k])
  {
    StripSlice(s);
    TrimLeftSpaces(s);
    StripTrailing(s);
  }

  /** The strip is the slice of `s` that starts after the leading whitespace. */
  lemma StripSlice(s: string)
    ensures Strip(s) == s[StripStart(s)..StripStart(s) + |Strip(s)|]
  {
    var left := TrimLeft(s);
    var i, t := |s| - |left|, TrimRight(left);
    assert left == s[i..];
    assert t == left[..|t|];
    assert s[i..][..|t|] == s[i..i + |t|];
  }

  /** Everything after the strip is whitespace. */
  lemma StripTrailing(s: string)
    ensures forall k :: StripStart(s) + |Strip(s)| <= k < |s| ==> IsSpace(s[k])
  {
    var left := TrimLeft(s);
    var i, t := |s| - |left|, TrimRight(left);
    TrimRightSpaces(left);
    assert left == s[i..];
    forall k | i + |t| <= k < |s|
      ensures IsSpace(s[k])
    {
      assert s[k] == left[k - i];
    }
  }

  /** A string that neither starts nor ends with whitespace strips to itself. */
  lemma StripTrimmed(s: string)
    requires |s| > 0 ==> !IsSpace(s[0]) && !IsSpace(s[|s| - 1])
    ensures Strip(s) == s
  {
  }

  /** One leading space makes no difference to the strip. */
  lemma StripLeadingSpace(s: string)
    ensures Strip(" " + s) == Strip(s)
  {
    assert (" " + s)[1..] == s;
  }

  /** Leading whitespace holds no word. */
  lemma {:induction false} WordsTrimLeft(s: string)
    ensures Words(TrimLeft(s)) == Words(s)
    decreases |s|
  {
    if |s| > 0 && IsSpace(s[0]) {
      WordsTrimLeft(s[1..]);
      assert s == [] + [s[0]] + s[1..];
      WordsAroundSpace([], s[0], s[1..]);
    }
  }

  /** Trailing whitespace holds no word. */
  lemma {:induction false} WordsTrimRight(s: string)
    ensures Words(TrimRight(s)) == Words(s)
    decreases |s|
  {
    if |s| > 0 && IsSpace(s[|s| - 1]) {
      var init := s[..|s| - 1];
      WordsTrimRight(init);
      assert s == init + [s[|s| - 1]] + [];
      WordsAroundSpace(init, s[|s| - 1], []);
    }
  }

  /** Stripping never changes the words of a string. */
  lemma WordsStrip(s: string)
    ensures Words(Strip(s)) == Words(s)
  {
    WordsTrimLeft(s);
    WordsTrimRight(TrimLeft(s));
  }

  /** A word has no whitespace to strip. */
  lemma StripWord(w: string)
    requires NoSpace(w)
    ensures Strip(w) == w
  {
  }

  /** The strip of a string is empty exactly when the string holds no word. */
  lemma StripEmptyIffNoWords(s: string)
    ensures Strip(s) == [] <==> Words(s) == []
  {
    WordsStrip(s);
    if Words(s) == [] {
      NoWordsAllSpace(s, []);
      StripAllSpace(s);
    }
  }

  /** A string made only of whitespace strips to the empty string. */
  lemma {:induction false} StripAllSpace(s: string)
    requires forall i :: 0 <= i < |s| ==> IsSpace(s[i])
    ensures Strip(s) == []
  {
    TrimLeftAllSpace(s);
  }

  lemma {:induction false} TrimLeftAllSpace(s: string)
    requires forall i :: 0 <= i < |s| ==> IsSpace(s[i])
    ensures TrimLeft(s) == []
    decreases |s|
  {
    if |s| > 0 {
      TrimLeftAllSpace(s[1..]);
    }
  }

  // ---------------------------------------------------------------------------
  // sep.join(xs)
  // ---------------------------------------------------------------------------

  /** Python's `sep.join(xs)` for a one-character separator. */
  function Join(xs: seq<string>, sep: char): (s: string)
    ensures |xs| == 1 ==> s == xs[0]
    decreases |xs|
  {
    if |xs| == 0 then []
    else if |xs| == 1 then xs[0]
    else Join(xs[..|xs| - 1], sep) + [sep] + xs[|xs| - 1]
  }

  /** Two strings are joined with one separator between them. */
  lemma JoinPair(a: string, b: string, sep: char)
    ensures Join([a, b], sep) == a + [sep] + b
  {
    assert [a, b][..1] == [a];
  }

  /** Joining one more string appends a separator and that string. */
  lemma JoinSnoc(xs: seq<string>, x: string, sep: char)
    requires |xs| > 0
    ensures Join(xs + [x], sep) == Join(xs, sep) + [sep] + x
  {
    assert (xs + [x])[..|xs|] == xs;
  }

  /** The separator stands between every two neighbouring strings: joining
      `[x] + xs` is `x`, the separator, then the join of `xs`. */
  lemma {:induction false} JoinCons(x: string, xs: seq<string>, sep: char)
    requires |xs| > 0
    ensures Join([x] + xs, sep) == x + [sep] + Join(xs, sep)
    decreases |xs|
  {
    if |xs| == 1 {
      JoinPair(x, xs[0], sep);
      assert [x] + xs == [x, xs[0]];
    } else {
      var init, last := xs[..|xs| - 1], xs[|xs| - 1];
      JoinCons(x, init, sep);
      assert [x] + xs == ([x] + init) + [last];
      JoinSnoc([x] + init, last, sep);
      assert xs == init + [last];
      JoinSnoc(init, last, sep);
    }
  }

  /** Words joined by a separator start and end with a non-whitespace character. */
  lemma {:induction false} JoinWordsEnds(ws: seq<string>, sep: char)
    requires AreWords(ws) && |ws| > 0
    ensures |Join(ws, sep)| > 0
    ensures !IsSpace(Join(ws, sep)[0]) && !IsSpace(Join(ws, sep)[|Join(ws, sep)| - 1])
    decreases |ws|
  {
    if |ws| > 1 {
      var init, last := ws[..|ws| - 1], ws[|ws| - 1];
      JoinWordsEnds(init, sep);
      assert IsWord(last);
      var j := Join(ws, sep);
      assert j == Join(init, sep) + [sep] + last;
      assert j[0] == Join(init, sep)[0];
      assert j[|j| - 1] == last[|last| - 1];
    } else {
      assert IsWord(ws[0]);
    }
  }

  /** All words of all strings of `xs`, string by string. */
  function WordsOfAll(xs: seq<string>): (ws: seq<string>)
    ensures AreWords(ws)
    decreases |xs|
  {
    if |xs| == 0 then [] else WordsOfAll(xs[..|xs| - 1]) + Words(xs[|xs| - 1])
  }

  /** Joining with whitespace loses no word and invents none. */
  lemma {:induction false} WordsOfJoin(xs: seq<string>, sep: char)
    requires IsSpace(sep)
    ensures Words(Join(xs, sep)) == WordsOfAll(xs)
    decreases |xs|
  {
    if |xs| == 0 {
    } else if |xs| == 1 {
      assert xs[..0] == [];
    } else {
      var init := xs[..|xs| - 1];
      WordsOfJoin(init, sep);
      WordsAroundSpace(Join(init, sep), sep, xs[|xs| - 1]);
    }
  }

  /** Splitting words joined by whitespace gives the words back. */
  lemma {:induction false} WordsOfJoinedWords(ws: seq<string>, sep: char)
    requires IsSpace(sep)
    requires AreWords(ws)
    ensures Words(Join(ws, sep)) == ws
    decreases |ws|
  {
    WordsOfJoin(ws, sep);
    WordsOfAllWords(ws);
  }

  lemma {:induction false} WordsOfAllWords(ws: seq<string>)
    requires AreWords(ws)
    ensures WordsOfAll(ws) == ws
    decreases |ws|
  {
    if |ws| > 0 {
      WordsOfAllWords(ws[..|ws| - 1]);
      WordsOfWord(ws[|ws| - 1]);
    }
  }
}

=== FILE: wrapping.dfy ===
/**
 The chore-text word wrapper (`wrap_text`). It splits the text into words and
 fills lines greedily: a word joins the current line, preceded by one space,
 while the result stays within `maxLength` characters; otherwise the current
 line is stripped and closed and the word starts the next one.

 The first line starts as the empty string, so its first word is appended
 with a leading space that counts against the limit. The consequence is
 kept as the program has it: a first word of `maxLength` characters or more
 closes an empty first line.
 */
module Wrapping {
  import opened Strings

  /** The state of the wrapping loop: closed lines and the line being filled. */
  function WrapLines(words: seq<string>, maxLength: int, lines: seq<string>, current: string): (r: seq<string>)
    ensures |r| > |lines| && r[..|lines|] == lines
    decreases |words|
  {
    if |words| == 0 then lines + [Strip(current)]
    else if |current + " " + words[0]| <= maxLength then
      WrapLines(words[1..], maxLength, lines, current + " " + words[0])
    else
      WrapLines(words[1..], maxLength, lines + [Strip(current)], words[0])
  }

  /** The lines `wrap_text` joins: at least one, possibly empty. */
  function Lines(text: string, maxLength: int): (r: seq<string>)
    ensures |r| >= 1
  {
    WrapLines(Words(text), maxLength, [], "")
  }

  /** `wrap_text(text, max_length)`: the lines joined with newlines. */
  function WrapText(text: string, maxLength: int): string {
    Join(Lines(text, maxLength), '\n')
  }

  /** A line fits: within the limit, or a single word too long to break. */
  predicate Fits(line: string, maxLength: int) {
    |line| <= maxLength || IsWord(line)
  }

  /** Appending a word after a space appends it to the line's words. */
  lemma WordsExtend(current: string, w: string)
    requires IsWord(w)
    ensures Words(current + " " + w) == Words(current) + [w]
  {
    WordsOfWord(w);
    WordsAroundSpace(current, ' ', w);
  }

  /** Closing the current line passes its words on to the closed lines. */
  lemma WordsClose(lines: seq<string>, current: string)
    ensures WordsOfAll(lines + [Strip(current)]) == WordsOfAll(lines) + Words(current)
  {
    var lines' := lines + [Strip(current)];
    assert lines'[..|lines'| - 1] == lines;
    WordsStrip(current);
  }

  /** The loop passes every word on, in order: the words of all lines are the
      words of the closed lines, of the current line, then the unread words. */
  lemma {:induction false} WrapLinesWords(words: seq<string>, maxLength: int, lines: seq<string>, current: string)
    requires AreWords(words)
    ensures WordsOfAll(WrapLines(words, maxLength, lines, current)) == WordsOfAll(lines) + Words(current) + words
    decreases |words|
  {
    if |words| == 0 {
      WordsClose(lines, current);
    } else {
      var w, rest := words[0], words[1..];
      assert words == [w] + rest;
      if |current + " " + w| <= maxLength {
        WrapLinesWords(rest, maxLength, lines, current + " " + w);
        WordsExtend(current, w);
      } else {
        WrapLinesWords(rest, maxLength, lines + [Strip(current)], w);
        WordsClose(lines, current);
        WordsOfWord(w);
      }
    }
  }

  /** Closing a line: the stripped current line is within the limit or one word,
      or it is the empty first line. */
  lemma StripFits(current: string, maxLength: int, first: bool)
    requires Fits(current, maxLength) || (first && current == [])
    ensures Fits(Strip(current), maxLength) || (first && Strip(current) == [])
  {
    if IsWord(current) {
      StripWord(current);
    }
  }

  /** Every line fits, except that the first may be empty (the leading-space
      quirk, or no words at all). */
  lemma {:induction false} WrapLinesFit(words: seq<string>, maxLength: int, lines: seq<string>, current: string)
    requires AreWords(words)
    requires forall i :: 0 <= i < |lines| ==> Fits(lines[i], maxLength) || (i == 0 && lines[i] == [])
    requires Fits(current, maxLength) || (lines == [] && current == [])
    ensures forall i :: 0 <= i < |WrapLines(words, maxLength, lines, current)| ==>
      Fits(WrapLines(words, maxLength, lines, current)[i], maxLength) || (i == 0 && WrapLines(words, maxLength, lines, current)[i] == [])
    decreases |words|
  {
    var line := Strip(current);
    StripFits(current, maxLength, lines == []);
    var lines' := lines + [line];
    assert forall i :: 0 <= i < |lines'| ==> Fits(lines'[i], maxLength) || (i == 0 && lines'[i] == []) by {
      forall i | 0 <= i < |lines'|
        ensures Fits(lines'[i], maxLength) || (i == 0 && lines'[i] == [])
      {
        if i < |lines| {
          assert lines'[i] == lines[i];
        }
      }
    }
    if |words| > 0 {
      var w, rest := words[0], words[1..];
      if |current + " " + w| <= maxLength {
        WrapLinesFit(rest, maxLength, lines, current + " " + w);
      } else {
        assert IsWord(w);
        WrapLinesFit(rest, maxLength, lines', w);
      }
    }
  }

  /** Once a line is closed, the current line holds a word, so no later line is empty. */
  lemma {:induction false} WrapLinesNonEmpty(words: seq<string>, maxLength: int, lines: seq<string>, current: string)
    requires AreWords(words)
    requires forall i :: 0 < i < |lines| ==> lines[i] != []
    requires |lines| > 0 ==> Words(current) != []
    ensures forall i :: 0 < i < |WrapLines(words, maxLength, lines, current)| ==>
      WrapLines(words, maxLength, lines, current)[i] != []
    decreases |words|
  {
    StripEmptyIffNoWords(current);
    var lines' := lines + [Strip(current)];
    assert forall i :: 0 < i < |lines'| ==> lines'[i] != [] by {
      forall i | 0 < i < |lines'|
        ensures lines'[i] != []
      {
        if i < |lines| {
          assert lines'[i] == lines[i];
        }
      }
    }
    if |words| > 0 {
      var w, rest := words[0], words[1..];
      var extended := current + " " + w;
      WordsOfWord(w);
      if |extended| <= maxLength {
        WordsAroundSpace(current, ' ', w);
        assert Words(extended) == Words(current) + [w];
        WrapLinesNonEmpty(rest, maxLength, lines, extended);
      } else {
        WrapLinesNonEmpty(rest, maxLength, lines', w);
      }
    }
  }

  /** With no line closed yet and a word in the current line, the first line is not empty. */
  lemma {:induction false} WrapLinesFirstNonEmpty(words: seq<string>, maxLength: int, current: string)
    requires AreWords(words)
    requires Words(current) != []
    ensures WrapLines(words, maxLength, [], current)[0] != []
    decreases |words|
  {
    StripEmptyIffNoWords(current);
    if |words| > 0 {
      var w, rest := words[0], words[1..];
      var extended := current + " " + w;
      if |extended| <= maxLength {
        WordsExtend(current, w);
        WrapLinesFirstNonEmpty(rest, maxLength, extended);
      } else {
        var none: seq<string> := [];
        assert none + [Strip(current)] == [Strip(current)];
        assert WrapLines(words, maxLength, none, current) == WrapLines(rest, maxLength, [Strip(current)], w);
      }
    }
  }


  /** Wrapping never loses, adds or reorders words: the output splits into
      exactly the words of the input. */
  lemma WrapTextKeepsWords(text: string, maxLength: int)
    ensures Words(WrapText(text, maxLength)) == Words(text)
    ensures WordsOfAll(Lines(text, maxLength)) == Words(text)
  {
    WrapLinesWords(Words(text), maxLength, [], "");
    WordsOfJoin(Lines(text, maxLength), '\n');
  }

  /** The leading space line `i` carried while it was filled: the first line
      starts as `''`, so its first word came after one space; later lines
      start with their first word. */
  function Indent(lines: seq<string>, i: int): nat
    requires 0 <= i < |lines|
  {
    if i == 0 && lines[0] != [] then 1 else 0
  }

  /** Every line is its words joined by single spaces. */
  predicate SingleSpaced(lines: seq<string>) {
    forall i :: 0 <= i < |lines| ==> lines[i] == Join(Words(lines[i]), ' ')
  }

  /** Lines are filled greedily: every line after the first starts with a
      word, and that word, after one space, would have overrun the line before. */
  predicate Greedy(lines: seq<string>, maxLength: int) {
    forall j :: 0 < j < |lines| ==>
      && Words(lines[j]) != []
      && Indent(lines, j - 1) + |lines[j - 1]| + 1 + |Words(lines[j])[0]| > maxLength
  }

  /** Every line, with its leading space, is within the limit, unless it is
      empty or a later line holding one word too long to break. */
  predicate WithinLimit(lines: seq<string>, maxLength: int) {
    forall i :: 0 <= i < |lines| ==>
      lines[i] == [] || Indent(lines, i) + |lines[i]| <= maxLength || (i > 0 && |Words(lines[i])| == 1)
  }

  /** The current line as the loop builds it: the words `cw` joined by single
      spaces, after one space while it is a non-empty first line. */
  function Lead(lines: seq<string>, cw: seq<string>): string {
    if lines == [] && cw != [] then " " else ""
  }

  /** Stripping the current line leaves its words joined by single spaces. */
  lemma StripCurrent(lines: seq<string>, cw: seq<string>)
    requires AreWords(cw)
    ensures Strip(Lead(lines, cw) + Join(cw, ' ')) == Join(cw, ' ')
    ensures Words(Join(cw, ' ')) == cw
    ensures Join(cw, ' ') == [] <==> cw == []
  {
    var j := Join(cw, ' ');
    if cw != [] {
      JoinWordsEnds(cw, ' ');
    }
    StripTrimmed(j);
    if Lead(lines, cw) == " " {
      StripLeadingSpace(j);
    } else {
      assert Lead(lines, cw) + j == j;
    }
    WordsOfJoinedWords(cw, ' ');
  }

  /** Appending a line leaves the earlier lines and their indents alone. */
  lemma SnocLines(lines: seq<string>, line: string)
    ensures forall i :: 0 <= i < |lines| ==> (lines + [line])[i] == lines[i] && Indent(lines + [line], i) == Indent(lines, i)
  {
  }

  /** A closed line of single-spaced words keeps the lines single-spaced. */
  lemma CloseSpaced(lines: seq<string>, line: string)
    requires SingleSpaced(lines)
    requires line == Join(Words(line), ' ')
    ensures SingleSpaced(lines + [line])
  {
    SnocLines(lines, line);
  }

  /** A closed line keeps the lines greedy when the current line's first word overran it. */
  lemma CloseGreedy(lines: seq<string>, line: string, maxLength: int)
    requires Greedy(lines, maxLength)
    requires lines != [] ==> Words(line) != [] && Indent(lines, |lines| - 1) + |lines[|lines| - 1]| + 1 + |Words(line)[0]| > maxLength
    ensures Greedy(lines + [line], maxLength)
  {
    SnocLines(lines, line);
    var lines' := lines + [line];
    forall j | 0 < j < |lines'|
      ensures Words(lines'[j]) != []
      ensures Indent(lines', j - 1) + |lines'[j - 1]| + 1 + |Words(lines'[j])[0]| > maxLength
    {
      if j < |lines| {
        assert lines'[j] == lines[j];
      }
    }
  }

  /** A closed line within the limit keeps the lines within the limit. */
  lemma CloseWithin(lines: seq<string>, line: string, maxLength: int)
    requires WithinLimit(lines, maxLength)
    requires line == [] || Indent(lines + [line], |lines|) + |line| <= maxLength || (lines != [] && |Words(line)| == 1)
    ensures WithinLimit(lines + [line], maxLength)
  {
    SnocLines(lines, line);
  }

  /** Closing the current line keeps the closed lines single-spaced, greedy
      and within the limit. */
  lemma CloseCurrent(lines: seq<string>, cw: seq<string>, current: string, maxLength: int)
    requires AreWords(cw)
    requires lines != [] ==> cw != []
    requires current == Lead(lines, cw) + Join(cw, ' ')
    requires cw == [] || |current| <= maxLength || (lines != [] && |cw| == 1)
    requires SingleSpaced(lines) && Greedy(lines, maxLength) && WithinLimit(lines, maxLength)
    requires lines != [] ==> Indent(lines, |lines| - 1) + |lines[|lines| - 1]| + 1 + |cw[0]| > maxLength
    ensures SingleSpaced(lines + [Strip(current)])
    ensures Greedy(lines + [Strip(current)], maxLength)
    ensures WithinLimit(lines + [Strip(current)], maxLength)
    ensures |current| == Indent(lines + [Strip(current)], |lines|) + |Strip(current)|
  {
    StripCurrent(lines, cw);
    var line := Strip(current);
    assert line == Join(cw, ' ') && Words(line) == cw;
    assert Indent(lines + [line], |lines|) == |Lead(lines, cw)|;
    CloseSpaced(lines, line);
    CloseGreedy(lines, line, maxLength);
    CloseWithin(lines, line, maxLength);
  }

  /** What holds of the wrapping loop's state before each word: the closed
      lines are single-spaced, greedy and within the limit; the current line
      is the words `cw` after its lead, is within the limit unless it is a
      later line of one word, and its first word overran the last closed line. */
  predicate Filling(lines: seq<string>, current: string, cw: seq<string>, maxLength: int) {
    && AreWords(cw)
    && (lines != [] ==> cw != [])
    && current == Lead(lines, cw) + Join(cw, ' ')
    && (cw == [] || |current| <= maxLength || (lines != [] && |cw| == 1))
    && SingleSpaced(lines) && Greedy(lines, maxLength) && WithinLimit(lines, maxLength)
    && (lines != [] ==> Indent(lines, |lines| - 1) + |lines[|lines| - 1]| + 1 + |cw[0]| > maxLength)
  }

  /** The loop keeps the lines single-spaced, greedy and within the limit,
      `cw` being the words of the current line. */
  lemma {:induction false} WrapLinesGreedy(words: seq<string>, maxLength: int, lines: seq<string>, current: string, cw: seq<string>)
    requires AreWords(words)
    requires Filling(lines, current, cw, maxLength)
    ensures SingleSpaced(WrapLines(words, maxLength, lines, current))
    ensures Greedy(WrapLines(words, maxLength, lines, current), maxLength)
    ensures WithinLimit(WrapLines(words, maxLength, lines, current), maxLength)
    decreases |words|, 1
  {
    if |words| == 0 {
      CloseCurrent(lines, cw, current, maxLength);
    } else if |current + " " + words[0]| <= maxLength {
      GreedyExtend(words, maxLength, lines, current, cw);
    } else {
      GreedyClose(words, maxLength, lines, current, cw);
    }
  }

  /** The loop step that appends the next word to the current line. */
  lemma {:induction false} GreedyExtend(words: seq<string>, maxLength: int, lines: seq<string>, current: string, cw: seq<string>)
    requires AreWords(words) && |words| > 0
    requires Filling(lines, current, cw, maxLength)
    requires |current + " " + words[0]| <= maxLength
    ensures SingleSpaced(WrapLines(words, maxLength, lines, current))
    ensures Greedy(WrapLines(words, maxLength, lines, current), maxLength)
    ensures WithinLimit(WrapLines(words, maxLength, lines, current), maxLength)
    decreases |words|, 0
  {
    var w := words[0];
    assert IsWord(w);
    ExtendCurrent(lines, cw, w);
    assert AreWords(cw + [w]);
    assert Filling(lines, current + " " + w, cw + [w], maxLength);
    WrapLinesGreedy(words[1..], maxLength, lines, current + " " + w, cw + [w]);
  }

  /** The loop step that closes the current line and starts the next with the next word. */
  lemma {:induction false} GreedyClose(words: seq<string>, maxLength: int, lines: seq<string>, current: string, cw: seq<string>)
    requires AreWords(words) && |words| > 0
    requires Filling(lines, current, cw, maxLength)
    requires |current + " " + words[0]| > maxLength
    ensures SingleSpaced(WrapLines(words, maxLength, lines, current))
    ensures Greedy(WrapLines(words, maxLength, lines, current), maxLength)
    ensures WithinLimit(WrapLines(words, maxLength, lines, current), maxLength)
    decreases |words|, 0
  {
    var w := words[0];
    assert IsWord(w);
    CloseCurrent(lines, cw, current, maxLength);
    var lines' := lines + [Strip(current)];
    assert |current + " " + w| == |current| + 1 + |w|;
    assert lines'[|lines'| - 1] == Strip(current);
    StartLine(lines', w, maxLength);
    WrapLinesGreedy(words[1..], maxLength, lines', w, [w]);
  }

  /** After a close, the word that overran the closed line starts the next one. */
  lemma StartLine(lines: seq<string>, w: string, maxLength: int)
    requires lines != [] && IsWord(w)
    requires SingleSpaced(lines) && Greedy(lines, maxLength) && WithinLimit(lines, maxLength)
    requires Indent(lines, |lines| - 1) + |lines[|lines| - 1]| + 1 + |w| > maxLength
    ensures Filling(lines, w, [w], maxLength)
  {
    assert Join([w], ' ') == w;
    assert Lead(lines, [w]) == "";
  }


  /** Appending a word after one space extends the current line's words. */
  lemma ExtendCurrent(lines: seq<string>, cw: seq<string>, w: string)
    requires lines != [] ==> cw != []
    ensures Lead(lines, cw) + Join(cw, ' ') + " " + w == Lead(lines, cw + [w]) + Join(cw + [w], ' ')
    ensures lines != [] && cw != [] ==> (cw + [w])[0] == cw[0]
  {
    if cw == [] {
      assert cw + [w] == [w];
      assert Lead(lines, cw) + Join(cw, ' ') == "";
      assert Lead(lines, [w]) + Join([w], ' ') == " " + w;
    } else {
      var lead, joined := Lead(lines, cw), Join(cw, ' ');
      assert Lead(lines, cw + [w]) == lead;
      JoinSnoc(cw, w, ' ');
      assert lead + joined + " " + w == lead + (joined + [' '] + w);
    }
  }

  /** The wrapper is greedy: a line is closed only when the next word, after
      one space, would overrun it. Every line is its words joined by single
      spaces, and every line is within the limit (the first counting its
      leading space) unless it is empty or a later line of one long word. */
  lemma WrapTextGreedy(text: string, maxLength: int)
    ensures SingleSpaced(Lines(text, maxLength))
    ensures Greedy(Lines(text, maxLength), maxLength)
    ensures WithinLimit(Lines(text, maxLength), maxLength)
  {
    var none: seq<string> := [];
    assert Lead([], none) + Join(none, ' ') == "";
    WrapLinesGreedy(Words(text), maxLength, [], "", []);
  }

  /** No word is broken: every line is within the limit or is one word,
      and only the first line can be empty. */
  lemma WrapTextLinesFit(text: string, maxLength: int)
    ensures forall i :: 0 <= i < |Lines(text, maxLength)| ==>
      Fits(Lines(text, maxLength)[i], maxLength) || (i == 0 && Lines(text, maxLength)[i] == [])
    ensures forall i :: 0 < i < |Lines(text, maxLength)| ==> Lines(text, maxLength)[i] != []
  {
    WrapLinesFit(Words(text), maxLength, [], "");
    WrapLinesNonEmpty(Words(text), maxLength, [], "");
  }

  /** The leading-space quirk: the first line is empty exactly when there is
      no word, or the first word together with one space exceeds the limit. */
  lemma WrapTextFirstLineEmpty(text: string, maxLength: int)
    ensures Lines(text, maxLength)[0] == [] <==>
      Words(text) == [] || |Words(text)[0]| + 1 > maxLength
  {
    var words := Words(text);
    if |words| > 0 {
      var w, rest := words[0], words[1..];
      var extended := "" + " " + w;
      if |extended| <= maxLength {
        WordsOfWord(w);
        WordsAroundSpace("", ' ', w);
        assert Words(extended) == [w];
        WrapLinesFirstNonEmpty(rest, maxLength, extended);
      } else {
        var none: seq<string> := [];
        assert none + [Strip("")] == [[]];
        assert Lines(text, maxLength) == WrapLines(rest, maxLength, [[]], w);
      }
    }
  }

  /** Empty input, or input of whitespace only, wraps to the empty string. */
  lemma WrapTextNoWords(text: string, maxLength: int)
    requires Words(text) == []
    ensures WrapText(text, maxLength) == []
  {
  }

  /** "Vacuum" is one word. */
  lemma VacuumWords()
    ensures Words("Vacuum") == ["Vacuum"]
  {
    WordsOfWord("Vacuum");
  }

  /** "Vacuum" at a limit of six: the word with its leading space is seven
      characters, so the empty first line is closed and the word starts the second. */
  lemma VacuumLines()
    ensures Lines("Vacuum", 6) == ["", "Vacuum"]
  {
    var w := "Vacuum";
    VacuumWords();
    assert Lines(w, 6) == WrapLines([w], 6, [], "");
    assert |"" + " " + w| > 6;
    assert [w][1..] == [];
    assert WrapLines([w], 6, [], "") == WrapLines([], 6, [] + [Strip("")], w);
    assert Strip("") == "";
    StripWord(w);
  }

  /** The quirk on one word: "Vacuum" has six characters, so at a limit of
      six it does not join the empty first line and lands on a second line. */
  lemma LeadingSpaceExample()
    ensures Lines("Vacuum", 6) == ["", "Vacuum"]
    ensures WrapText("Vacuum", 6) == "\nVacuum"
  {
    VacuumLines();
    JoinPair("", "Vacuum", '\n');
  }
}
